=== FILE: README.md ===
# PIX fraud-report triage — a Dafny model

The system collects reports of PIX fraud (`RelatoInfracao`: the transaction,
payer, payee, the victim's account of the scam and risk metadata), stores them
in MongoDB and scores them. It has two independent scorers:

- `POST /api/analise` (`app/api/analise/route.ts`). This is an additive point table over the
  metadata, clamped at 100. It maps the score to a three-bucket status
  (`ALTO_RISCO` above 70, `MEDIO_RISCO` above 40, otherwise `BAIXO_RISCO`),
  writes score and status back into the report, and replies with fixed
  recommendations.
- The LLM agent (`lib/agenteLLM.ts`). It reads its configuration from the
  environment, returns a canned mock answer when no API key is set, and
  otherwise calls Gemini or OpenAI. It cuts the JSON object out of the answer
  with a greedy regular expression, demands a truthy `score` and `nivelRisco`,
  and defaults the other fields. On any failure it falls back to a two-rule
  analysis. Its tier vocabulary is `BAIXO`/`MEDIO`/`ALTO`/`CRITICO`, with
  cutoffs 30/70/100.

Around them sit two more pieces:

- The prompt loader (`lib/promptLoader.ts`). It substitutes `{{KEY}}`
  placeholders, with the key upper-cased, by a global replace per variable.
- The report route (`app/api/relatos/route.ts`). `POST` validates a body and
  inserts it. `GET` filters, sorts by creation date descending and paginates.

Both stored records (`models/RelatoInfracao.ts`, `models/AnaliseRelato.ts`)
are modelled with their schema validators.

Representation choices:

- Money is integer cents and timestamps are integer milliseconds.
- The database is an immutable sequence of reports (`Store`) threaded through
  the handlers.
- The network call is a function parameter `transport`, and `JSON.parse` is a
  parameter `parse` that yields typed optional fields.
- Reading a template file is a parameter `load`, and the environment is a
  `map<string, string>`.
- Clocks and database-assigned identifiers are parameters (`now`, `id`).

Modules:

- `Wrappers`: `Option` and `Result`.
- `Text`: string helpers.
- `RelatoModel`, `AnaliseModel`: the two records.
- `RouteScoring`: the analysis route.
- `Agente`, `AgenteProperties`: the agent and its properties.
- `PromptLoader`: placeholder substitution.
- `RelatosRoute`: the report route.
- `SampleData`: the three sample reports the submission form offers, and what
  each part of the system makes of them.

## Model

| member | source | states |
|---|---|---|
| `Text.ToUpper` | lib/promptLoader.ts:26 | `key.toUpperCase()` keeps the length and upper-cases each ASCII letter in place, leaving every other character alone |
| `Text.NatToString` | lib/promptLoader.ts:27 | `String(n)` for a natural number is a non-empty string of decimal digits without a leading zero whose value reads back as `n` |
| `Text.IntToString` | lib/promptLoader.ts:27 | `String(n)` for an integer is the natural numeral for a non-negative `n` and `-` followed by the numeral of `-n` for a negative one |
| `RelatoModel.FindIdRelato` | app/api/relatos/route.ts:20 | `findOne({ idRelato })` finds nothing exactly when no stored report carries the identifier; otherwise it returns the first report carrying it |
| `RelatoModel.Save` | models/RelatoInfracao.ts:145-148 | the pre-save hook sets `dataAtualizacao` to the current time and changes nothing else |
| `RelatoModel.SchemaValid` | models/RelatoInfracao.ts:74-141 | a document passes the schema's `required` validators: `idRelato`, `statusRelato` and every required string of the nested objects non-empty |
| `RelatoModel.SaveKeepsValidity` | models/RelatoInfracao.ts:145-148 | the pre-save hook never changes whether a document validates |
| `RelatoModel.UniqueIds` | models/RelatoInfracao.ts:132 | the unique index on `idRelato`: no two stored reports share an identifier |
| `RelatoModel.UniqueFindIsOnlyMatch` | models/RelatoInfracao.ts:132 | under the unique index on `idRelato`, the report a lookup finds is the only one with that identifier |
| `RelatoModel.AppendFreshKeepsUnique` | models/RelatoInfracao.ts:132 | inserting a report whose `idRelato` is not yet stored keeps the identifiers unique |
| `RouteScoring.ScoreAnalise` | app/api/analise/route.ts:59-106 | the score is always within 0..100; it is the raw point total, or 100 when the total exceeds 100 |
| `RouteScoring.PriorReportPoints` | app/api/analise/route.ts:65-72 | earlier reports against the payee earn 0, 10, 20 or 30 points: nothing exactly when there are none, 30 exactly above 5 |
| `RouteScoring.AmountPoints` | app/api/analise/route.ts:74-81 | the amount earns 0, 15 or 25 points: 25 exactly above three times the payee's average; for a non-negative average, nothing exactly up to twice it |
| `RouteScoring.AccountRiskPoints` | app/api/analise/route.ts:83-88 | the payee account earns 0, 10 or 20 points: 20 exactly below 300, nothing exactly from 600 |
| `RouteScoring.DevicePoints` | app/api/analise/route.ts:90-93 | a new device earns 15 points and a known one none |
| `RouteScoring.HistoryPoints` | app/api/analise/route.ts:95-98 | an inconsistent payer history earns 10 points and a consistent one none |
| `RouteScoring.ProfilePoints` | app/api/analise/route.ts:100-103 | a payer profile of exactly `ALTO` earns 5 points and any other none |
| `RouteScoring.RawScore` | app/api/analise/route.ts:59-104 | the unclamped total is a multiple of 5 between 0 and 105 |
| `RouteScoring.RawScoreBounds` | app/api/analise/route.ts:59-104 | every rule contributes a non-negative amount, so the unclamped total lies between 0 and 105 |
| `RouteScoring.NeutralScoresZero` | app/api/analise/route.ts:59-106 | a report with no earlier reports, an ordinary amount, an account score of 600 or more, a known device, a consistent history and a non-`ALTO` payer scores 0 and is `BAIXO_RISCO` |
| `RouteScoring.PriorReportBands` | app/api/analise/route.ts:65-72 | earlier reports against the payee earn 30 points above 5, 20 above 2, 10 above 0 and nothing otherwise |
| `RouteScoring.ScoreMonotoneInRaw` | app/api/analise/route.ts:105 | clamping preserves order: a report with no fewer raw points never scores lower |
| `RouteScoring.ScoreMonotoneInPriorReports` | app/api/analise/route.ts:65-72 | raising the payee's earlier-report count never lowers the score |
| `RouteScoring.ScoreMonotoneInValor` | app/api/analise/route.ts:74-81 | raising the transaction amount never lowers the score |
| `RouteScoring.ScoreAntitoneInAccountRisk` | app/api/analise/route.ts:83-88 | raising the payee account's risk score never raises the score |
| `RouteScoring.StatusFor` | app/api/analise/route.ts:29 | the status is `ALTO_RISCO` exactly above 70, `MEDIO_RISCO` exactly in 41..70 and `BAIXO_RISCO` exactly at 40 or below |
| `RouteScoring.StatusMonotone` | app/api/analise/route.ts:29 | a higher score never yields a lower status |
| `RouteScoring.StatusRecommendations` | app/api/analise/route.ts:111-122 | high and medium risk get three fixed recommendations and low risk two, none of them the suspicious-history warning |
| `RouteScoring.GerarRecomendacoes` | app/api/analise/route.ts:108-129 | the list starts with the status's fixed recommendations; the suspicious-history warning is present exactly when the payee has more than three earlier reports, and then it comes last |
| `RouteScoring.RecommendationCount` | app/api/analise/route.ts:108-129 | every reply carries two to four recommendations |
| `RouteScoring.Analyze` | app/api/analise/route.ts:5-48 | a missing or empty `idRelato` gives 400 and an unknown one 404, both leaving the store unchanged; otherwise one report with that identifier gets the score and status, and the reply carries them with the recommendations |
| `RouteScoring.ApplyAnalysis` | app/api/analise/route.ts:32-40 | the update stores the route's score of the report (within 0..100), the status that score maps to, and the current time, and changes no other field |
| `RouteScoring.AnalyzeScoresTheMatch` | app/api/analise/route.ts:18-48 | under the unique index, the report scored and updated is the one that carries the requested identifier |
| `RouteScoring.AnalyzePreservesUniqueness` | app/api/analise/route.ts:32-40 | the update never changes an `idRelato`, so the unique index still holds |
| `RouteScoring.AnalyzeTouchesOnlyTarget` | app/api/analise/route.ts:32-40 | every report with a different identifier is left exactly as it was |
| `RouteScoring.ReanalysisIsStable` | app/api/analise/route.ts:32-40 | the score reads none of the fields the update writes, so analysing a report again gives the same score, status and recommendations, and the update is idempotent |
| `AnaliseModel.TierNamesAdmitted` | models/AnaliseRelato.ts:30-34 | each of the four tiers has a name the `nivelRisco` enum admits, and distinct tiers have distinct names |
| `AnaliseModel.FallbackProviderRejected` | models/AnaliseRelato.ts:51-55 | the provider enum has no `fallback` value, so a record tagged with it fails validation |
| `AnaliseModel.Valid` | models/AnaliseRelato.ts:18-59 | a record passes the analysis schema: relation and model present, score at least 0, tier and provider from their enums, a justification, confidence within 0..100 |
| `Agente.ConfigFromEnvironment` | lib/agenteLLM.ts:17-27 | Gemini is selected exactly when `LLM_PROVIDER` is unset, empty or `gemini`; the key comes from that provider's variable, or is empty; the base URL is that provider's `*_BASE_URL` variable when set and non-empty, and the provider's default otherwise |
| `Agente.ChamarLlm` | lib/agenteLLM.ts:106-118 | without an API key the answer is the mock text and the transport is not consulted; with a key the answer is the transport's |
| `Agente.FirstIndexOf` | lib/agenteLLM.ts:199 | finds a `{` exactly when the text has one, and it is the first one |
| `Agente.LastIndexOf` | lib/agenteLLM.ts:199 | finds a `}` exactly when the text has one, and it is the last one |
| `Agente.ExtractJson` | lib/agenteLLM.ts:199-202 | the regular expression matches exactly when some `{` is followed later by a `}`; the match runs from the first `{` to the last `}` of the text |
| `Agente.HasScoreAndTier` | lib/agenteLLM.ts:207 | the parsed answer's `score` is present and non-zero and its `nivelRisco` present and non-empty |
| `Agente.ProcessarResposta` | lib/agenteLLM.ts:196-223 | succeeds exactly when an object is extracted, parses, and has a non-zero `score` and a non-empty `nivelRisco`; those two pass through unchanged and absent fields become `[]`, `""` or 0; every failure carries the one processing error |
| `Agente.NivelRisco` | lib/agenteLLM.ts:261-263 | BAIXO exactly up to 30, MEDIO exactly in 31..70, ALTO exactly in 71..100, CRITICO exactly above 100 |
| `Agente.AnaliseFallback` | lib/agenteLLM.ts:246-273 | the flags are exactly the prior-reports flag when the payee has earlier reports followed by the low-score flag when the account score is below 300, with no other and no repeated flag; the score is 40 and 20 for those flags, so it is one of 0/20/40/60; the tier matches the score; recommendation, justification and confidence 50 are fixed |
| `Agente.AnalisarRelato` | lib/agenteLLM.ts:29-40 | a failed call yields the fallback analysis; a successful one yields the processed answer when it is accepted and the fallback otherwise |
| `AgenteProperties.TierMonotone` | lib/agenteLLM.ts:261-263 | a higher score never yields a lower tier |
| `AgenteProperties.TierMatchesPromptBands` | lib/agenteLLM.ts:77-81 | for every non-negative score, the code's tier is exactly the tier whose range the prompt lists for that score |
| `AgenteProperties.TierBoundaries` | lib/agenteLLM.ts:261-263 | the tier changes exactly between 30 and 31, 70 and 71, and 100 and 101 |
| `AgenteProperties.FallbackTierLowOrMedium` | lib/agenteLLM.ts:248-263 | the fallback can only classify a report as BAIXO or MEDIO |
| `AgenteProperties.FallbackDependsOnlyOnTwoRules` | lib/agenteLLM.ts:251-259 | two reports that agree on "has earlier reports" and "account score below 300" get identical fallback analyses |
| `AgenteProperties.FallbackRecordValid` | models/AnaliseRelato.ts:25-59 | a fallback analysis, stored with a valid provider and model, passes every validator of the analysis schema |
| `AgenteProperties.ExtractCharacterized` | lib/agenteLLM.ts:199 | the span from a `{` with none before it to a `}` with none after it is exactly what is extracted |
| `AgenteProperties.ExtractionDropsCommentary` | lib/agenteLLM.ts:198-199 | prose before the object without `{` and after it without `}` is dropped, leaving the object |
| `AgenteProperties.ExtractionIsGreedy` | lib/agenteLLM.ts:199 | with two objects in the answer, both are taken together with the text between them |
| `AgenteProperties.ExtractionNeedsBracePair` | lib/agenteLLM.ts:199-202 | text without braces, or with `}` only before `{`, yields no match |
| `AgenteProperties.ExtractWholeObject` | lib/agenteLLM.ts:199-204 | an answer that is itself an object is extracted whole |
| `AgenteProperties.FalsyRequiredRejected` | lib/agenteLLM.ts:207-209 | a zero or missing score, or an empty or missing tier, is rejected with the processing error |
| `AgenteProperties.MissingOptionalDefaults` | lib/agenteLLM.ts:211-218 | an answer with only score and tier is accepted with empty lists, an empty justification and confidence 0 |
| `AgenteProperties.AcceptedFieldsUnchecked` | lib/agenteLLM.ts:207-218 | a negative score or an unknown tier name is accepted, and the record built from it fails the analysis schema |
| `AgenteProperties.AnalisarRelatoTotal` | lib/agenteLLM.ts:29-40 | once the prompt is built the analysis never fails: it is the fallback or an accepted answer of the model |
| `AgenteProperties.TransportErrorYieldsFallback` | lib/agenteLLM.ts:32-38 | with a key set, a transport error gives exactly the fallback analysis, with confidence 50 |
| `AgenteProperties.BadAnswerYieldsFallback` | lib/agenteLLM.ts:32-38 | an answer without a `{ … }` pair gives exactly the fallback analysis |
| `AgenteProperties.EmptyKeyUsesMock` | lib/agenteLLM.ts:106-111 | without a key the result does not depend on the transport; with a faithful parser it is the canned analysis (score 85, ALTO, confidence 85) |
| `AgenteProperties.MockRecordValid` | lib/agenteLLM.ts:225-243 | the canned analysis stored under provider `mock` passes the analysis schema |
| `AgenteProperties.EmptyEnvironmentIsMockMode` | lib/agenteLLM.ts:17-22 | with no variables set the agent uses Gemini with the default URL and no key, which is mock mode |
| `PromptLoader.SplitOn` | lib/promptLoader.ts:27 | the text is cut into at least one piece; no piece contains the pattern, and rejoining with the pattern gives back the text |
| `PromptLoader.SplitOnLeftmost` | lib/promptLoader.ts:27 | the cut is the global scan's: a single piece is the whole text; otherwise the first piece ends at the leftmost occurrence and the rest is the cut of the text after that occurrence |
| `PromptLoader.ReplaceAllIsSplitJoin` | lib/promptLoader.ts:27 | the global replace is the text's pattern-free pieces rejoined with the replacement |
| `PromptLoader.ReplaceAllAbsent` | lib/promptLoader.ts:27 | a text without the pattern comes back unchanged |
| `PromptLoader.ReplaceAllSkipsPrefix` | lib/promptLoader.ts:27 | a prefix in which no occurrence starts is copied through and the replacement continues after it |
| `PromptLoader.ReplaceAll` | lib/promptLoader.ts:27 | replacing the pattern by itself, or replacing in a text that lacks the pattern's first character, gives back the text |
| `PromptLoader.ValueString` | lib/promptLoader.ts:27 | `String(value)`: a string is kept, a boolean becomes `true` or `false`, a number becomes its canonical numeral (no leading zero, never empty), `-` first when negative, whose digits read back as its magnitude; only a string value can bring a `{` |
| `PromptLoader.ProcessPrompt` | lib/promptLoader.ts:18-31 | a template without `{` holds no placeholder and is returned unchanged whatever the variables |
| `PromptLoader.Placeholder` | lib/promptLoader.ts:26 | the token is the upper-cased key between `{{` and `}}` |
| `PromptLoader.LoadAndProcessPrompt` | lib/promptLoader.ts:7-39 | succeeds exactly when the template loads, and then yields the processed template; a failed load gives the error `Prompt <name> não encontrado` |
| `PromptLoader.NoVariablesIdentity` | lib/promptLoader.ts:18-31 | with no variables the template is returned unchanged |
| `PromptLoader.ProcessPromptSnoc` | lib/promptLoader.ts:25-28 | substitution is sequential: processing one more entry is one more global replace on the result so far |
| `PromptLoader.EveryOccurrenceReplaced` | lib/promptLoader.ts:25-28 | for one variable, every occurrence of its placeholder becomes the value and the text between occurrences is kept |
| `PromptLoader.UnmatchedPassThrough` | lib/promptLoader.ts:25-28 | a template holding none of the variables' placeholders is returned unchanged |
| `PromptLoader.NoBraceNoPlaceholder` | lib/promptLoader.ts:26 | text without `{` cannot hold any placeholder |
| `PromptLoader.JoinLacks` | lib/promptLoader.ts:27 | joining pieces that lack a character with a separator that lacks it gives a text that lacks it |
| `PromptLoader.JoinNoOccurrence` | lib/promptLoader.ts:27 | pattern-free pieces joined by a separator without the pattern's first character hold no occurrence of the pattern, provided no piece but the last ends with a beginning of it |
| `PromptLoader.NoPlaceholderRemains` | lib/promptLoader.ts:25-28 | when the value has no `{` and no text before a placeholder of the key ends with the start of one, no placeholder for the key is left after substitution |
| `PromptLoader.BraceFreePiecesFullySubstituted` | lib/promptLoader.ts:25-28 | in particular, when `{` occurs in the template only inside the key's placeholders and not in the value, no placeholder for the key is left |
| `PromptLoader.LacksCharNoOccurrence` | lib/promptLoader.ts:27 | a text lacking one of the pattern's characters does not contain the pattern |
| `PromptLoader.PlaceholderOfId` | lib/promptLoader.ts:26 | the token for key `id` is `{{ID}}` |
| `PromptLoader.LowerCasePlaceholderKept` | lib/promptLoader.ts:26-27 | placeholders are case-sensitive: `{{id}}` is not substituted for key `id` |
| `PromptLoader.UpperCasePlaceholderReplaced` | lib/promptLoader.ts:26-27 | `{{ID}}` is substituted for key `id` |
| `PromptLoader.NestedBracesCanRebuildPlaceholder` | lib/promptLoader.ts:25-28 | because replaced text is not rescanned, a value inside nested braces can complete a new placeholder that survives substitution |
| `RelatosRoute.HasRequiredFields` | app/api/relatos/route.ts:12 | `idRelato` is present and non-empty, and `transacao`, `pagador`, `recebedor` and `avaliacaoFraude` are present |
| `RelatosRoute.RecordOf` | app/api/relatos/route.ts:29-43 | the new document carries every field of the body, including a preset score and creation date; an absent status becomes `EM_ANALISE`, an absent creation date the current time, and `dataAtualizacao` is the save time |
| `RelatosRoute.BuildRecord` | app/api/relatos/route.ts:28-45 | the save succeeds exactly when `dataHoraRelato` and `metadadosAnalise` are present and the document passes the schema's validators; the stored report then carries the body's identifier, dates, transaction, payer, payee, fraud assessment, metadata and score, its status or `EM_ANALISE`, its creation date or the current time, and the current time as `dataAtualizacao` |
| `RelatosRoute.Create` | app/api/relatos/route.ts:5-64 | 400 exactly when a required field is missing or falsy, 409 exactly when the `idRelato` is already stored, 201 exactly when neither holds and the save succeeds; a non-201 reply leaves the store unchanged; 201 appends exactly the built report and replies with its identifier and status |
| `RelatosRoute.CreatePreservesUniqueness` | app/api/relatos/route.ts:19-26 | every POST keeps `idRelato` unique across the collection |
| `RelatosRoute.CreateDefaultsStatus` | models/RelatoInfracao.ts:134 | a body without a status is stored and answered as `EM_ANALISE` |
| `RelatosRoute.CreateKeepsBodyScoreAndDate` | app/api/relatos/route.ts:29-30 | a body that presets `scoreAnalise` and `dataCriacao` is stored with them |
| `RelatosRoute.CreateDefaultsScoreAndDate` | models/RelatoInfracao.ts:140-141 | a body that presets neither is stored without a score and created at the current time |
| `RelatosRoute.InsertByDate` | app/api/relatos/route.ts:78 | inserting one report lengthens the list by one |
| `RelatosRoute.InsertByDateSorted` | app/api/relatos/route.ts:78 | inserting into a date-descending list keeps it date-descending |
| `RelatosRoute.InsertByDatePermutes` | app/api/relatos/route.ts:78 | the result holds exactly the list's reports and the inserted one, with multiplicity |
| `RelatosRoute.InsertByDateBounded` | app/api/relatos/route.ts:78 | when the inserted report and every entry of the list are no newer than some date, so is every entry of the result |
| `RelatosRoute.SortByDateDesc` | app/api/relatos/route.ts:78 | the result is ordered by `dataCriacao`, newest first, and is a permutation of its input |
| `RelatosRoute.FilterByStatus` | app/api/relatos/route.ts:75-77 | the result holds exactly the reports with the requested status, each as many times as the collection holds it |
| `RelatosRoute.Matching` | app/api/relatos/route.ts:73-77 | a non-empty status filter keeps exactly the reports with that status, with their multiplicity, so `total` counts them; an absent or empty one keeps the whole collection |
| `RelatosRoute.CeilDiv` | app/api/relatos/route.ts:87 | for a positive limit, the page count is the least number of pages of `limit` that holds `total`; for a negative limit it is the ceiling of `total / limit`, which is at most 0 |
| `RelatosRoute.NegativeCeil` | app/api/relatos/route.ts:87 | for a positive `m`, `-(total / m)` is the least integer at or above `total / -m` |
| `RelatosRoute.Window` | app/api/relatos/route.ts:79-80 | skip then limit is the contiguous slice after the skipped items, at most the limit's absolute value long; a limit of 0 keeps everything after the skip |
| `RelatosRoute.List` | app/api/relatos/route.ts:66-99 | fails exactly when the skip `(page - 1) * limit` is negative; otherwise `total` counts the matches and `currentPage` echoes the page, `totalPages` is absent exactly when the limit is 0, and the page holds at most the limit's absolute value; a limit of 0 returns every match newest first, and a negative limit on page 1 returns the newest `-limit` matches |
| `RelatosRoute.ListIsPage` | app/api/relatos/route.ts:77-81 | for page and limit at least 1, the page is the `page`-th block of `limit` sorted matches |
| `RelatosRoute.ListPage` | app/api/relatos/route.ts:77-90 | for page and limit at least 1, the page has at most `limit` reports, in date order, each a stored report satisfying the filter; `totalPages` is the ceiling of `total / limit` |
| `RelatosRoute.EveryMatchOnSomePage` | app/api/relatos/route.ts:77-87 | every matching report appears at slot `k % limit` of page `k / limit + 1`, and that page is within `totalPages`; this rests on the model's single order for equal dates, which MongoDB does not promise to keep across separate page queries |
| `RelatosRoute.TotalIndependentOfPage` | app/api/relatos/route.ts:83 | `total` does not depend on the page or the limit |
| `RelatosRoute.NoFilterCountsAll` | app/api/relatos/route.ts:75-83 | without a status filter `total` is the size of the collection |
| `SampleData.SamplePayloadRejected` | lib/sampleData.ts:4-172 | the form's samples carry no `idRelato`, so posting one as it stands gets 400 and stores nothing |
| `SampleData.SampleRecordValid` | lib/sampleData.ts:4-172 | once given a fresh `idRelato`, each sample passes every validator of the report schema and posting it gets 201 and appends the built report with status `EM_ANALISE` |
| `SampleData.SampleRouteScores` | lib/sampleData.ts:4-172 | the analysis route scores the low, medium and "critical" samples 20, 55 and 80, which are low, medium and high risk |
| `SampleData.SampleRecommendations` | lib/sampleData.ts:162-171 | only the critical sample, with 8 earlier reports, gets the suspicious-history warning after the high-risk list |
| `SampleData.SampleFallbackScores` | lib/sampleData.ts:4-172 | the agent's fallback scores the samples 20, 60 and 60, so the "critical" sample reaches only MEDIO |
| `SampleData.VocabulariesDisagree` | app/api/analise/route.ts:29 | the two scorers' cutoffs differ (35 is low risk to the route but MEDIO to the agent), and no route score is CRITICO to the agent |

## Left out

- `gerarPrompt` (lib/agenteLLM.ts:42-104) is not modelled. It formats floats (`toFixed`) and computes account age from `new Date()`. `AnalisarRelato` takes the built prompt as a parameter.
- The Gemini and OpenAI requests (lib/agenteLLM.ts:120-194) are the `transport` parameter. The request bodies, HTTP status handling and response shapes are not modelled; any failure there is an `Err`.
- `JSON.parse` is the `parse` parameter. Its result has typed optional fields, so fields of the wrong JSON type and a non-object top level are not modelled. The mock text is given literally, but that it parses to the canned object is a hypothesis of `EmptyKeyUsesMock`.
- `PromptLoader.ReplaceAll` treats the placeholder as a literal string. Keys containing regular-expression metacharacters, and `$` patterns in replacement strings, are not modelled. Neither are keys of digits (`10`) or of the form `d,d` (`1,2`): the placeholder `{{10}}` then reads as a braced quantifier (ten `{` followed by `}`), so the source leaves `{{10}}` in place and rewrites such brace runs, while the model substitutes the placeholder.
- `Text.ToUpper` upper-cases ASCII letters only, while `toUpperCase` also maps non-ASCII letters (`ç` to `Ç`).
- `ProcessPrompt` takes the variables as a sequence in `Object.entries` order. JavaScript puts integer-like keys first; that reordering is not modelled.
- Numbers are integers: money in cents, scores and counts as `int`. Fractional amounts and NaN are not modelled, and neither is `parseInt` of a non-numeric `page` or `limit` (which makes both NaN).
- Dates are integer milliseconds. `new Date(...)` parsing of the body's strings, and the invalid-date failure for a malformed date string, are not modelled; only an absent `dataHoraRelato` is.
- Loading a template from disk (lib/promptLoader.ts:7-16) is the `load` parameter.
- `RelatoModel.SchemaValid` checks only the required strings. The required numbers, dates and booleans of the nested objects (`valor`, `dataHoraTransacao`, `dataAbertura`, `scoreRiscoConta`, the metadata's counts and flags) and the nested `conta` and `dispositivoTransacao` subdocuments are always present in the model, so a body missing one of them (which the source answers with 500, from the validator or from a `TypeError` at app/api/relatos/route.ts:40) cannot be written.
- `RelatosRoute.Payload` carries the body keys the handler or the schema reads, plus the two a body can preset (`scoreAnalise`, `dataCriacao`). A body-supplied `dataAtualizacao` is overwritten by the pre-save hook. A body-supplied `_id` becomes the document's id (the `id` parameter can stand for it); an uncastable or already-stored one makes the save fail with 500, which is not modelled.
- Database and connection failures (the `catch` blocks returning 500), concurrency between requests, and the secondary indexes on `AnaliseRelato` are not modelled. The unique index is modelled as the `UniqueIds` invariant.
- `RelatosRoute.SortByDateDesc` keeps ties in collection order. MongoDB leaves the order of equal `dataCriacao` values unspecified, so this fixes one admissible order.
- `RelatosRoute.List` returns `|limit|` reports for a negative limit (the driver's single-batch reading). It fails only for a negative skip, and it reports `totalPages` as absent for a limit of 0, where JSON carries `null` for `Infinity` or `NaN`.
- The by-identifier routes (`app/api/relatos/[id]/route.ts`, `app/api/analise/[id]/route.ts`) and the UI pages are not part of this model.
- Persisting an agent analysis as an `AnaliseRelato` happens outside the agent. `ToRecord` only shows the record that would be built, so that its validity can be stated.

=== FILE: agente.dfy ===
/**
 * The deterministic core of the LLM agent: configuration from the environment,
 * the mock/transport routing of `chamarLLM`, the greedy JSON extraction and
 * field validation of `processarResposta`, the two-rule `analiseFallback`, the
 * four-tier classification, and `analisarRelato`, which turns every transport
 * or parsing failure into the fallback analysis.
 *
 * The network call is the parameter `transport` and `JSON.parse` is the
 * parameter `parse`; neither is modelled further.
 */
module Agente {
  import opened Wrappers
  import opened Text
  import opened RelatoModel
  import opened AnaliseModel

  // ----- Result of an analysis -----

  /** `ResultadoAnaliseLLM`. Fields arrive unchecked from the model's answer. */
  datatype Resultado = Resultado(
    score: int,
    nivelRisco: string,
    bandeirasVermelhas: seq<string>,
    recomendacoes: seq<string>,
    justificativa: string,
    confianca: int)

  /** The object `JSON.parse` yields, each field `None` when the key is absent. */
  datatype ParsedResponse = ParsedResponse(
    score: Option<int>,
    nivelRisco: Option<string>,
    bandeirasVermelhas: Option<seq<string>>,
    recomendacoes: Option<seq<string>>,
    justificativa: Option<string>,
    confianca: Option<int>)

  // ----- Configuration -----

  datatype Backend = Gemini | OpenAI

  datatype Config = Config(provider: Backend, apiKey: string, baseUrl: string)

  const GeminiDefaultUrl: string := "https://generativelanguage.googleapis.com/v1beta"
  const OpenAIDefaultUrl: string := "https://api.openai.com/v1"

  /** `process.env[name] || fallback`: an unset or empty variable takes the default. */
  function EnvOr(env: map<string, string>, name: string, fallback: string): string {
    if name in env && env[name] != "" then env[name] else fallback
  }

  /**
   * The constructor: `LLM_PROVIDER` defaults to `gemini`; any other non-empty
   * value selects the OpenAI branch, with its own key and base URL.
   */
  function ConfigFromEnvironment(env: map<string, string>): (cfg: Config)
    ensures cfg.provider == Gemini <==>
      ("LLM_PROVIDER" !in env || env["LLM_PROVIDER"] == "" || env["LLM_PROVIDER"] == "gemini")
    ensures cfg.provider == Gemini ==>
      cfg.apiKey == (if "GEMINI_API_KEY" in env then env["GEMINI_API_KEY"] else "")
    ensures cfg.provider == OpenAI ==>
      cfg.apiKey == (if "OPENAI_API_KEY" in env then env["OPENAI_API_KEY"] else "")
    ensures cfg.provider == Gemini ==>
      cfg.baseUrl == (if "GEMINI_BASE_URL" in env && env["GEMINI_BASE_URL"] != "" then env["GEMINI_BASE_URL"] else GeminiDefaultUrl)
    ensures cfg.provider == OpenAI ==>
      cfg.baseUrl == (if "OPENAI_BASE_URL" in env && env["OPENAI_BASE_URL"] != "" then env["OPENAI_BASE_URL"] else OpenAIDefaultUrl)
    ensures cfg.baseUrl != ""
  {
    if EnvOr(env, "LLM_PROVIDER", "gemini") == "gemini" then
      Config(Gemini, EnvOr(env, "GEMINI_API_KEY", ""), EnvOr(env, "GEMINI_BASE_URL", GeminiDefaultUrl))
    else
      Config(OpenAI, EnvOr(env, "OPENAI_API_KEY", ""), EnvOr(env, "OPENAI_BASE_URL", OpenAIDefaultUrl))
  }

  // ----- Transport and mock -----

  /** One request to the configured backend: the answer text or an error message. */
  type Transport = (Config, string) -> Result<string, string>

  /** `gerarRespostaMock`: the `JSON.stringify` text of the canned analysis. */
  const MockResponseText: string := "{" + MockResponseFields + "}"

  const MockResponseFields: string := "\"score\":85,\"nivelRisco\":\"ALTO\",\"bandeirasVermelhas\":[\"Recebedor com histórico de relatos anteriores\",\"Conta aberta recentemente\",\"Valor significativamente maior que a média\",\"Palavras-chave suspeitas na descrição\"],\"recomendacoes\":[\"Bloquear cautelarmente a conta do recebedor\",\"Iniciar processo de MED\",\"Monitoramento intensivo das transações\",\"Solicitar documentação adicional\"],\"justificativa\":\"Análise baseada em múltiplos indicadores de risco: histórico do recebedor, idade da conta, valor da transação e análise textual. O score elevado indica necessidade de ação preventiva.\",\"confianca\":85"

  /** The object that `MockResponseText` encodes. */
  const MockObject: ParsedResponse := ParsedResponse(
    Some(85),
    Some("ALTO"),
    Some(["Recebedor com histórico de relatos anteriores",
          "Conta aberta recentemente",
          "Valor significativamente maior que a média",
          "Palavras-chave suspeitas na descrição"]),
    Some(["Bloquear cautelarmente a conta do recebedor",
          "Iniciar processo de MED",
          "Monitoramento intensivo das transações",
          "Solicitar documentação adicional"]),
    Some("Análise baseada em múltiplos indicadores de risco: histórico do recebedor, idade da conta, valor da transação e análise textual. O score elevado indica necessidade de ação preventiva."),
    Some(85))

  /** `chamarLLM`: without an API key the mock text is returned and no request is made. */
  function ChamarLlm(cfg: Config, prompt: string, transport: Transport): (r: Result<string, string>)
    ensures cfg.apiKey == "" ==> r == Ok(MockResponseText)
    ensures cfg.apiKey != "" ==> r == transport(cfg, prompt)
  {
    if cfg.apiKey == "" then Ok(MockResponseText) else transport(cfg, prompt)
  }

  // ----- Extraction of the JSON object from free text -----

  /** Position of the first `c` in `s`. */
  function FirstIndexOf(s: string, c: char): (r: Option<nat>)
    ensures r.None? <==> Lacks(s, c)
    ensures r.Some? ==> r.value < |s| && s[r.value] == c
    ensures r.Some? ==> forall k :: 0 <= k < r.value ==> s[k] != c
  {
    if |s| == 0 then None
    else if s[0] == c then Some(0)
    else
      match FirstIndexOf(s[1..], c)
      case None => None
      case Some(k) => Some(k + 1)
  }

  /** Position of the last `c` in `s`. */
  function LastIndexOf(s: string, c: char): (r: Option<nat>)
    ensures r.None? <==> Lacks(s, c)
    ensures r.Some? ==> r.value < |s| && s[r.value] == c
    ensures r.Some? ==> forall k :: r.value < k < |s| ==> s[k] != c
  {
    if |s| == 0 then None
    else if s[|s| - 1] == c then Some(|s| - 1)
    else LastIndexOf(s[..|s| - 1], c)
  }

  /** Some `{` is followed, later in `s`, by a `}`. */
  predicate HasBracePair(s: string) {
    exists i, j :: 0 <= i < j < |s| && s[i] == '{' && s[j] == '}'
  }

  /**
   * The match of `/\{[\s\S]*\}/`: from the first `{` to the last `}` (greedy),
   * or nothing when no `}` follows a `{`.
   */
  function ExtractJson(s: string): (r: Option<string>)
    ensures r.Some? <==> HasBracePair(s)
    ensures r.Some? ==> exists i, j ::
      && 0 <= i < j < |s| && r.value == s[i..j + 1]
      && s[i] == '{' && (forall k :: 0 <= k < i ==> s[k] != '{')
      && s[j] == '}' && (forall k :: j < k < |s| ==> s[k] != '}')
  {
    var first := FirstIndexOf(s, '{');
    var last := LastIndexOf(s, '}');
    if first.Some? && last.Some? && first.value < last.value then
      Some(s[first.value..last.value + 1])
    else
      None
  }

  // ----- processarResposta -----

  const ProcessingError: string := "Falha ao processar análise do LLM"

  /** JavaScript truthiness of the two required fields: 0 and "" are rejected. */
  predicate HasScoreAndTier(p: ParsedResponse) {
    p.score.Some? && p.score.value != 0 && p.nivelRisco.Some? && p.nivelRisco.value != ""
  }

  /**
   * `processarResposta`: extract, parse, require a truthy `score` and
   * `nivelRisco`, and default the other fields. Nothing is range- or enum-checked.
   */
  function ProcessarResposta(text: string, parse: string -> Option<ParsedResponse>): (r: Result<Resultado, string>)
    ensures r.Ok? <==>
      ExtractJson(text).Some? && parse(ExtractJson(text).value).Some?
      && HasScoreAndTier(parse(ExtractJson(text).value).value)
    ensures r.Err? ==> r.error == ProcessingError
    ensures r.Ok? ==>
      var p := parse(ExtractJson(text).value).value;
      && r.value.score == p.score.value && r.value.score != 0
      && r.value.nivelRisco == p.nivelRisco.value && r.value.nivelRisco != ""
      && r.value.bandeirasVermelhas == p.bandeirasVermelhas.GetOr([])
      && r.value.recomendacoes == p.recomendacoes.GetOr([])
      && r.value.justificativa == p.justificativa.GetOr("")
      && r.value.confianca == p.confianca.GetOr(0)
  {
    match ExtractJson(text)
    case None => Err(ProcessingError)
    case Some(span) =>
      match parse(span)
      case None => Err(ProcessingError)
      case Some(p) =>
        if !HasScoreAndTier(p) then Err(ProcessingError)
        else
          Ok(Resultado(
            p.score.value,
            p.nivelRisco.value,
            p.bandeirasVermelhas.GetOr([]),
            p.recomendacoes.GetOr([]),
            p.justificativa.GetOr(""),
            p.confianca.GetOr(0)))
  }

  // ----- Four-tier classification and the fallback -----

  /** The four-tier mapping: up to 30, up to 70, up to 100, above. */
  function NivelRisco(score: int): (t: Tier)
    ensures t == Baixo <==> score <= 30
    ensures t == Medio <==> 30 < score <= 70
    ensures t == Alto <==> 70 < score <= 100
    ensures t == Critico <==> score > 100
  {
    if score <= 30 then Baixo else if score <= 70 then Medio else if score <= 100 then Alto else Critico
  }

  const PriorReportsFlag: string := "Recebedor com relatos anteriores"
  const LowAccountScoreFlag: string := "Score de risco baixo da conta"
  const ManualReview: string := "Análise manual necessária"
  const FallbackJustification: string := "Análise de fallback devido a erro no LLM"
  const FallbackConfidence: int := 50

  /** The points the fallback attaches to each of its red flags. */
  function FlagPoints(flag: string): int {
    if flag == PriorReportsFlag then 40 else if flag == LowAccountScoreFlag then 20 else 0
  }

  function SumFlagPoints(flags: seq<string>): int {
    if |flags| == 0 then 0 else FlagPoints(flags[0]) + SumFlagPoints(flags[1..])
  }

  /**
   * `analiseFallback`: 40 points and a flag for earlier reports against the
   * payee, 20 points and a flag for an account risk score below 300; fixed
   * recommendation, justification and confidence.
   */
  function AnaliseFallback(r: RelatoInfracao): (res: Resultado)
    ensures res.score in {0, 20, 40, 60}
    ensures res.score == SumFlagPoints(res.bandeirasVermelhas)
    ensures PriorReportsFlag in res.bandeirasVermelhas <==> r.metadadosAnalise.relatosAnterioresRecebedor > 0
    ensures LowAccountScoreFlag in res.bandeirasVermelhas <==> r.recebedor.conta.scoreRiscoConta < 300
    ensures res.bandeirasVermelhas ==
      (if r.metadadosAnalise.relatosAnterioresRecebedor > 0 then [PriorReportsFlag] else [])
      + (if r.recebedor.conta.scoreRiscoConta < 300 then [LowAccountScoreFlag] else [])
    ensures forall i, j :: 0 <= i < j < |res.bandeirasVermelhas| ==>
      res.bandeirasVermelhas[i] != res.bandeirasVermelhas[j]
    ensures res.nivelRisco == NivelRisco(res.score).Name()
    ensures res.recomendacoes == [ManualReview]
    ensures res.justificativa == FallbackJustification
    ensures res.confianca == FallbackConfidence
  {
    var f1 := if r.metadadosAnalise.relatosAnterioresRecebedor > 0 then [PriorReportsFlag] else [];
    var f2 := if r.recebedor.conta.scoreRiscoConta < 300 then [LowAccountScoreFlag] else [];
    var flags := f1 + f2;
    var score := (if |f1| == 1 then 40 else 0) + (if |f2| == 1 then 20 else 0);
    assert SumFlagPoints(f2) == (if |f2| == 1 then 20 else 0);
    assert flags == [] || flags == [PriorReportsFlag] || flags == [LowAccountScoreFlag]
           || flags == [PriorReportsFlag, LowAccountScoreFlag];
    assert score == SumFlagPoints(flags);
    Resultado(score, NivelRisco(score).Name(), flags, [ManualReview], FallbackJustification, FallbackConfidence)
  }

  // ----- analisarRelato -----

  /**
   * `analisarRelato` once its prompt is built: call the LLM, process the
   * answer, and on any failure of either step return the fallback analysis.
   */
  function AnalisarRelato(cfg: Config, r: RelatoInfracao, prompt: string, transport: Transport,
                          parse: string -> Option<ParsedResponse>): (res: Resultado)
    ensures ChamarLlm(cfg, prompt, transport).Err? ==> res == AnaliseFallback(r)
    ensures ChamarLlm(cfg, prompt, transport).Ok? ==>
      var processed := ProcessarResposta(ChamarLlm(cfg, prompt, transport).value, parse);
      res == (if processed.Ok? then processed.value else AnaliseFallback(r))
  {
    match ChamarLlm(cfg, prompt, transport)
    case Err(_) => AnaliseFallback(r)
    case Ok(text) =>
      match ProcessarResposta(text, parse)
      case Err(_) => AnaliseFallback(r)
      case Ok(res) => res
  }

  /** A record built from an analysis, as the persistence layer would store it. */
  function ToRecord(relatoId: string, res: Resultado, provider: string, modelo: string, now: int): AnaliseRelato {
    AnaliseRelato(relatoId, res.score, res.nivelRisco, res.bandeirasVermelhas, res.recomendacoes,
                  res.justificativa, res.confianca, provider, modelo, now, now, now)
  }
}

=== FILE: agente_properties.dfy ===
/** Properties of the agent's deterministic core. */
module AgenteProperties {
  import opened Wrappers
  import opened Text
  import opened RelatoModel
  import opened AnaliseModel
  import opened Agente

  // ----- Four-tier classification -----

  /** The classification is monotone: a higher score never yields a lower tier. */
  lemma TierMonotone(s1: int, s2: int)
    requires s1 <= s2
    ensures NivelRisco(s1).Rank() <= NivelRisco(s2).Rank()
  {
  }

  /** The inclusive point ranges the prompt text lists for each tier (101+ is open-ended). */
  predicate InPromptBand(t: Tier, score: int) {
    match t
    case Baixo => 0 <= score <= 30
    case Medio => 31 <= score <= 70
    case Alto => 71 <= score <= 100
    case Critico => 101 <= score
  }

  /** For every non-negative score the code's mapping agrees with the prompt's table. */
  lemma TierMatchesPromptBands(score: int, t: Tier)
    requires score >= 0
    ensures NivelRisco(score) == t <==> InPromptBand(t, score)
  {
  }

  /** The boundaries fall exactly at 30/31, 70/71 and 100/101. */
  lemma TierBoundaries()
    ensures NivelRisco(30) == Baixo && NivelRisco(31) == Medio
    ensures NivelRisco(70) == Medio && NivelRisco(71) == Alto
    ensures NivelRisco(100) == Alto && NivelRisco(101) == Critico
  {
  }

  // ----- Fallback -----

  /** The fallback can only classify a report as BAIXO or MEDIO. */
  lemma FallbackTierLowOrMedium(r: RelatoInfracao)
    ensures NivelRisco(AnaliseFallback(r).score) in {Baixo, Medio}
    ensures AnaliseFallback(r).nivelRisco == "BAIXO" || AnaliseFallback(r).nivelRisco == "MEDIO"
  {
  }

  /** The fallback reads only the two rule conditions: reports agreeing on them get the same analysis. */
  lemma FallbackDependsOnlyOnTwoRules(a: RelatoInfracao, b: RelatoInfracao)
    requires (a.metadadosAnalise.relatosAnterioresRecebedor > 0) == (b.metadadosAnalise.relatosAnterioresRecebedor > 0)
    requires (a.recebedor.conta.scoreRiscoConta < 300) == (b.recebedor.conta.scoreRiscoConta < 300)
    ensures AnaliseFallback(a) == AnaliseFallback(b)
  {
  }

  /** A fallback analysis passes the analysis schema's validators once stored. */
  lemma FallbackRecordValid(r: RelatoInfracao, relatoId: string, provider: string, modelo: string, now: int)
    requires relatoId != "" && IsProviderName(provider) && modelo != ""
    ensures Valid(ToRecord(relatoId, AnaliseFallback(r), provider, modelo, now))
  {
    FallbackTierLowOrMedium(r);
  }

  // ----- Extraction -----

  /** The span from a `{` with none before it to a `}` with none after it is what is extracted. */
  lemma ExtractCharacterized(s: string, i: nat, j: nat)
    requires i < j < |s| && s[i] == '{' && s[j] == '}'
    requires forall k :: 0 <= k < i ==> s[k] != '{'
    requires forall k :: j < k < |s| ==> s[k] != '}'
    ensures ExtractJson(s) == Some(s[i..j + 1])
  {
    var first := FirstIndexOf(s, '{');
    var last := LastIndexOf(s, '}');
    assert first.Some? && first.value == i;
    assert last.Some? && last.value == j;
  }

  /** Commentary before the object (with no `{`) and after it (with no `}`) is dropped. */
  lemma ExtractionDropsCommentary(pre: string, obj: string, post: string)
    requires Lacks(pre, '{') && Lacks(post, '}')
    requires |obj| >= 2 && obj[0] == '{' && obj[|obj| - 1] == '}'
    ensures ExtractJson(pre + obj + post) == Some(obj)
  {
    var s := pre + obj + post;
    var i, j := |pre|, |pre| + |obj| - 1;
    assert s[i] == obj[0] && s[j] == obj[|obj| - 1];
    assert forall k :: 0 <= k < i ==> s[k] == pre[k];
    assert forall k :: j < k < |s| ==> s[k] == post[k - |pre| - |obj|];
    ExtractCharacterized(s, i, j);
    assert s[i..j + 1] == obj;
  }

  /** Extraction is greedy: two objects in one answer are taken together with the text between them. */
  lemma ExtractionIsGreedy()
    ensures ExtractJson("{a} e {b}") == Some("{a} e {b}")
  {
    var s := "{a} e {b}";
    ExtractCharacterized(s, 0, 8);
    assert s[0..9] == s;
  }

  /** Without a `}` after a `{` nothing is extracted. */
  lemma ExtractionNeedsBracePair()
    ensures ExtractJson("sem objeto") == None
    ensures ExtractJson("} antes {") == None
  {
    var s := "} antes {";
    assert forall i, j :: 0 <= i < j < |s| && s[i] == '{' ==> s[j] != '}';
  }

  /** A text that is itself an object is extracted whole. */
  lemma ExtractWholeObject(s: string)
    requires |s| >= 2 && s[0] == '{' && s[|s| - 1] == '}'
    ensures ExtractJson(s) == Some(s)
  {
    assert FirstIndexOf(s, '{') == Some(0);
    assert LastIndexOf(s, '}') == Some(|s| - 1);
    assert s[0..|s|] == s;
  }

  // ----- processarResposta -----

  /** A zero score, an empty tier, or a missing one is rejected. */
  lemma FalsyRequiredRejected(text: string, parse: string -> Option<ParsedResponse>)
    requires ExtractJson(text).Some? && parse(ExtractJson(text).value).Some?
    requires var p := parse(ExtractJson(text).value).value;
      p.score == Some(0) || p.score.None? || p.nivelRisco == Some("") || p.nivelRisco.None?
    ensures ProcessarResposta(text, parse) == Err(ProcessingError)
  {
  }

  /** Absent optional fields default to empty lists, an empty justification and confidence 0. */
  lemma MissingOptionalDefaults(text: string, parse: string -> Option<ParsedResponse>, score: int, nivel: string)
    requires score != 0 && nivel != ""
    requires ExtractJson(text).Some?
    requires parse(ExtractJson(text).value) == Some(ParsedResponse(Some(score), Some(nivel), None, None, None, None))
    ensures ProcessarResposta(text, parse) == Ok(Resultado(score, nivel, [], [], "", 0))
  {
  }

  /**
   * Accepted fields are not range- or enum-checked: a negative score or an
   * unknown tier name is accepted, and the record built from it fails the
   * analysis schema.
   */
  lemma AcceptedFieldsUnchecked(text: string, parse: string -> Option<ParsedResponse>, score: int, nivel: string,
                                relatoId: string, provider: string, modelo: string, now: int)
    requires score < 0 || (nivel != "" && !IsTierName(nivel))
    requires score != 0 && nivel != ""
    requires ExtractJson(text).Some?
    requires parse(ExtractJson(text).value).Some?
    requires parse(ExtractJson(text).value).value.score == Some(score)
    requires parse(ExtractJson(text).value).value.nivelRisco == Some(nivel)
    ensures ProcessarResposta(text, parse).Ok?
    ensures !Valid(ToRecord(relatoId, ProcessarResposta(text, parse).value, provider, modelo, now))
  {
  }

  // ----- analisarRelato -----

  /** Once the prompt is built the analysis never fails: it is the fallback or an accepted answer. */
  lemma AnalisarRelatoTotal(cfg: Config, r: RelatoInfracao, prompt: string, transport: Transport,
                            parse: string -> Option<ParsedResponse>)
    ensures var res := AnalisarRelato(cfg, r, prompt, transport, parse);
      || res == AnaliseFallback(r)
      || (ChamarLlm(cfg, prompt, transport).Ok?
          && ProcessarResposta(ChamarLlm(cfg, prompt, transport).value, parse) == Ok(res))
  {
  }

  /** With a key configured, a transport error yields exactly the fallback analysis. */
  lemma TransportErrorYieldsFallback(cfg: Config, r: RelatoInfracao, prompt: string, transport: Transport,
                                     parse: string -> Option<ParsedResponse>)
    requires cfg.apiKey != ""
    requires transport(cfg, prompt).Err?
    ensures AnalisarRelato(cfg, r, prompt, transport, parse) == AnaliseFallback(r)
    ensures AnalisarRelato(cfg, r, prompt, transport, parse).confianca == 50
  {
  }

  /** An answer the processor rejects yields exactly the fallback analysis. */
  lemma BadAnswerYieldsFallback(cfg: Config, r: RelatoInfracao, prompt: string, transport: Transport,
                                parse: string -> Option<ParsedResponse>)
    requires cfg.apiKey != ""
    requires transport(cfg, prompt).Ok?
    requires !HasBracePair(transport(cfg, prompt).value)
    ensures AnalisarRelato(cfg, r, prompt, transport, parse) == AnaliseFallback(r)
  {
  }

  /** The accepted mock answer. */
  const MockResultado: Resultado := Resultado(
    85, "ALTO", MockObject.bandeirasVermelhas.value, MockObject.recomendacoes.value,
    MockObject.justificativa.value, 85)

  /**
   * Without an API key no request is made, so the transport is irrelevant; a
   * parser that reads the mock text faithfully makes the result the canned
   * analysis (score 85, ALTO, confidence 85).
   */
  lemma EmptyKeyUsesMock(cfg: Config, r: RelatoInfracao, prompt: string, t1: Transport, t2: Transport,
                         parse: string -> Option<ParsedResponse>)
    requires cfg.apiKey == ""
    ensures AnalisarRelato(cfg, r, prompt, t1, parse) == AnalisarRelato(cfg, r, prompt, t2, parse)
    ensures parse(MockResponseText) == Some(MockObject) ==>
      && AnalisarRelato(cfg, r, prompt, t1, parse) == MockResultado
      && MockResultado.score == 85 && MockResultado.nivelRisco == "ALTO" && MockResultado.confianca == 85
  {
    ExtractWholeObject(MockResponseText);
  }

  /** The canned analysis passes the analysis schema under provider `mock`. */
  lemma MockRecordValid(relatoId: string, modelo: string, now: int)
    requires relatoId != "" && modelo != ""
    ensures Valid(ToRecord(relatoId, MockResultado, "mock", modelo, now))
  {
  }

  /** An empty environment selects Gemini with no key, that is, mock mode. */
  lemma EmptyEnvironmentIsMockMode()
    ensures ConfigFromEnvironment(map[]) == Config(Gemini, "", GeminiDefaultUrl)
  {
  }
}

=== FILE: analise_model.dfy ===
/**
 * The stored analysis record (`AnaliseRelato`) and the validators its schema
 * applies on save: a non-negative score, a four-valued risk level, a confidence
 * in [0, 100], one of three providers and the required text fields.
 */
module AnaliseModel {

  /** The four risk levels the schema admits for `nivelRisco`. */
  datatype Tier = Baixo | Medio | Alto | Critico {
    function Name(): string {
      match this
      case Baixo => "BAIXO"
      case Medio => "MEDIO"
      case Alto => "ALTO"
      case Critico => "CRITICO"
    }

    /** Position on the scale, from 0 (BAIXO) to 3 (CRITICO). */
    function Rank(): nat {
      match this
      case Baixo => 0
      case Medio => 1
      case Alto => 2
      case Critico => 3
    }
  }

  predicate IsTierName(s: string) {
    s == "BAIXO" || s == "MEDIO" || s == "ALTO" || s == "CRITICO"
  }

  predicate IsProviderName(s: string) {
    s == "gemini" || s == "openai" || s == "mock"
  }

  datatype AnaliseRelato = AnaliseRelato(
    relatoId: string,
    score: int,
    nivelRisco: string,
    bandeirasVermelhas: seq<string>,
    recomendacoes: seq<string>,
    justificativa: string,
    confianca: int,
    provider: string,
    modelo: string,
    dataAnalise: int,
    dataCriacao: int,
    dataAtualizacao: int)

  /** The record passes every validator of the schema. */
  predicate Valid(a: AnaliseRelato) {
    && a.relatoId != ""
    && a.score >= 0
    && IsTierName(a.nivelRisco)
    && a.justificativa != ""
    && 0 <= a.confianca <= 100
    && IsProviderName(a.provider)
    && a.modelo != ""
  }

  /** Exactly the four tier names are admitted, and a name determines its tier. */
  lemma TierNamesAdmitted(t: Tier, u: Tier)
    ensures IsTierName(t.Name())
    ensures t.Name() == u.Name() ==> t == u
  {
  }

  /** There is no `fallback` provider: a record tagged so is rejected on save. */
  lemma FallbackProviderRejected(a: AnaliseRelato)
    requires a.provider == "fallback"
    ensures !Valid(a)
  {
  }
}

=== FILE: prompt_loader.dfy ===
/**
 * `PromptLoader`: placeholder substitution over a prompt template. For each
 * variable, in the object's key order, every `{{KEY}}` (the key upper-cased)
 * is replaced by the value's string form; all other text, including
 * placeholders no variable names, is left as it is. Loading the template from
 * disk is the parameter `load`.
 */
module PromptLoader {
  import opened Wrappers
  import opened Text

  // ----- Literal replace-all -----

  /**
   * `s.replace(new RegExp(pat, 'g'), rep)` for a pattern without regular
   * expression metacharacters: non-overlapping occurrences, left to right;
   * replaced text is not scanned again.
   */
  function ReplaceAll(s: string, pat: string, rep: string): (r: string)
    requires |pat| > 0
    ensures rep == pat ==> r == s
    ensures Lacks(s, pat[0]) ==> r == s
    decreases |s|
  {
    if |s| < |pat| then s
    else if s[..|pat|] == pat then
      assert s == s[..|pat|] + s[|pat|..];
      rep + ReplaceAll(s[|pat|..], pat, rep)
    else
      assert s == [s[0]] + s[1..];
      [s[0]] + ReplaceAll(s[1..], pat, rep)
  }

  /** The pieces joined with `sep` between consecutive ones. */
  function JoinWith(pieces: seq<string>, sep: string): string
    requires |pieces| >= 1
  {
    if |pieces| == 1 then pieces[0] else pieces[0] + sep + JoinWith(pieces[1..], sep)
  }

  /** The first piece starts the joined text. */
  lemma JoinStartsWithFirst(pieces: seq<string>, sep: string)
    requires |pieces| >= 1
    ensures pieces[0] <= JoinWith(pieces, sep)
  {
  }

  /** An occurrence one character into `[c] + t` is an occurrence in `t`. */
  lemma OccursShift(c: char, t: string, pat: string, i: int)
    requires i >= 0
    ensures OccursAt([c] + t, pat, i + 1) <==> OccursAt(t, pat, i)
  {
    if 0 <= i && i + 1 + |pat| <= |[c] + t| {
      assert ([c] + t)[i + 1..i + 1 + |pat|] == t[i..i + |pat|];
    }
  }

  /**
   * The text cut at each occurrence of `pat` the replace-all scan finds. The
   * pieces rejoined with `pat` give back `s`, and no piece contains `pat`;
   * `SplitOnLeftmost` shows that the cut is the scan's.
   */
  function SplitOn(s: string, pat: string): (pieces: seq<string>)
    requires |pat| > 0
    ensures |pieces| >= 1
    ensures JoinWith(pieces, pat) == s
    ensures forall k :: 0 <= k < |pieces| ==> !Contains(pieces[k], pat)
    decreases |s|
  {
    if |s| < |pat| then [s]
    else if s[..|pat|] == pat then
      var rest := SplitOn(s[|pat|..], pat);
      var pieces := [""] + rest;
      assert pieces[1..] == rest;
      assert JoinWith(pieces, pat) == "" + pat + s[|pat|..];
      assert s == pat + s[|pat|..];
      pieces
    else
      var rest := SplitOn(s[1..], pat);
      var head := [s[0]] + rest[0];
      var pieces := [head] + rest[1..];
      SplitHeadJoins(s, pat, rest);
      SplitHeadClean(s, pat, rest);
      pieces
  }

  /**
   * The cut is the one the left-to-right scan makes: a single piece is the
   * whole text, and otherwise the first piece runs up to the leftmost
   * occurrence and the other pieces are the cut of the text after it.
   */
  lemma {:induction false} SplitOnLeftmost(s: string, pat: string)
    requires |pat| > 0
    ensures var pieces := SplitOn(s, pat);
      && (|pieces| == 1 ==> pieces[0] == s)
      && (|pieces| > 1 ==>
            && |pieces[0]| + |pat| <= |s|
            && OccursAt(s, pat, |pieces[0]|)
            && (forall i :: 0 <= i < |pieces[0]| ==> !OccursAt(s, pat, i))
            && pieces[1..] == SplitOn(s[|pieces[0]| + |pat|..], pat))
    decreases |s|
  {
    var pieces := SplitOn(s, pat);
    if |s| < |pat| {
    } else if s[..|pat|] == pat {
      assert pieces == [""] + SplitOn(s[|pat|..], pat);
      assert OccursAt(s, pat, 0);
    } else {
      var rest := SplitOn(s[1..], pat);
      SplitOnLeftmost(s[1..], pat);
      assert pieces == [[s[0]] + rest[0]] + rest[1..];
      if |rest| > 1 {
        SplitHeadLeftmost(s, pat, rest[0]);
        assert pieces[1..] == rest[1..];
      } else {
        assert s == [s[0]] + s[1..];
      }
    }
  }

  /**
   * When `s` does not start with `pat`, the leftmost occurrence in `s[1..]`
   * after a prefix `p` is the leftmost in `s` after `[s[0]] + p`.
   */
  lemma SplitHeadLeftmost(s: string, pat: string, p: string)
    requires |pat| > 0 && |s| >= |pat| && s[..|pat|] != pat
    requires |p| + |pat| <= |s| - 1 && OccursAt(s[1..], pat, |p|)
    requires forall i :: 0 <= i < |p| ==> !OccursAt(s[1..], pat, i)
    ensures |p| + 1 + |pat| <= |s| && OccursAt(s, pat, |p| + 1)
    ensures forall i :: 0 <= i < |p| + 1 ==> !OccursAt(s, pat, i)
    ensures s[|p| + 1 + |pat|..] == s[1..][|p| + |pat|..]
  {
    assert s == [s[0]] + s[1..];
    OccursShift(s[0], s[1..], pat, |p|);
    forall i | 0 <= i < |p| + 1
      ensures !OccursAt(s, pat, i)
    {
      if i == 0 {
        assert s[..|pat|] == s[0..|pat|];
      } else {
        OccursShift(s[0], s[1..], pat, i - 1);
      }
    }
  }

  /** Prepending a character to the first piece prepends it to the joined text. */
  lemma JoinConsHead(c: char, rest: seq<string>, sep: string)
    requires |rest| >= 1
    ensures JoinWith([[c] + rest[0]] + rest[1..], sep) == [c] + JoinWith(rest, sep)
  {
    var pieces := [[c] + rest[0]] + rest[1..];
    if |rest| > 1 {
      assert pieces[1..] == rest[1..];
      assert JoinWith(pieces, sep) == ([c] + rest[0]) + sep + JoinWith(rest[1..], sep);
    }
  }

  /** Rejoining after prepending `s[0]` to the first piece gives `s` back. */
  lemma SplitHeadJoins(s: string, pat: string, rest: seq<string>)
    requires |s| >= 1 && |rest| >= 1 && JoinWith(rest, pat) == s[1..]
    ensures JoinWith([[s[0]] + rest[0]] + rest[1..], pat) == s
  {
    JoinConsHead(s[0], rest, pat);
    assert [s[0]] + s[1..] == s;
  }

  /** The first piece gains no occurrence when `s` itself does not start with `pat`. */
  lemma SplitHeadClean(s: string, pat: string, rest: seq<string>)
    requires |pat| > 0 && |s| >= |pat| && s[..|pat|] != pat
    requires |rest| >= 1 && JoinWith(rest, pat) == s[1..]
    requires !Contains(rest[0], pat)
    ensures !Contains([s[0]] + rest[0], pat)
  {
    var head := [s[0]] + rest[0];
    JoinStartsWithFirst(rest, pat);
    assert head <= s;
    forall i | 0 <= i <= |head| - |pat|
      ensures !OccursAt(head, pat, i)
    {
      if i == 0 {
        assert head[..|pat|] == s[..|pat|];
      } else {
        OccursShift(s[0], rest[0], pat, i - 1);
      }
    }
  }

  /** Replacing every occurrence is joining the split pieces with the replacement. */
  lemma {:induction false} ReplaceAllIsSplitJoin(s: string, pat: string, rep: string)
    requires |pat| > 0
    ensures ReplaceAll(s, pat, rep) == JoinWith(SplitOn(s, pat), rep)
    decreases |s|
  {
    if |s| < |pat| {
    } else if s[..|pat|] == pat {
      ReplaceAllIsSplitJoin(s[|pat|..], pat, rep);
      var rest := SplitOn(s[|pat|..], pat);
      assert SplitOn(s, pat) == [""] + rest;
      assert ([""] + rest)[1..] == rest;
    } else {
      ReplaceAllIsSplitJoin(s[1..], pat, rep);
      var rest := SplitOn(s[1..], pat);
      assert SplitOn(s, pat) == [[s[0]] + rest[0]] + rest[1..];
      JoinConsHead(s[0], rest, rep);
    }
  }

  /** A text without the pattern comes back unchanged. */
  lemma {:induction false} ReplaceAllAbsent(s: string, pat: string, rep: string)
    requires |pat| > 0
    requires !Contains(s, pat)
    ensures ReplaceAll(s, pat, rep) == s
  {
    var pieces := SplitOn(s, pat);
    ReplaceAllIsSplitJoin(s, pat, rep);
    if |pieces| > 1 {
      JoinStartsWithFirst(pieces[1..], pat);
      assert s == pieces[0] + pat + JoinWith(pieces[1..], pat);
      assert OccursAt(s, pat, |pieces[0]|);
    }
  }

  // ----- Placeholder substitution -----

  /** The scalar values a variable may hold. */
  datatype Value = Str(s: string) | Num(n: int) | Bool(b: bool)

  /** `String(value)`. */
  function ValueString(v: Value): (r: string)
    ensures v.Str? ==> r == v.s
    ensures v.Bool? ==> (r == "true" <==> v.b) && (r == "false" <==> !v.b)
    ensures v.Num? && v.n >= 0 ==>
      (forall k :: 0 <= k < |r| ==> IsDigit(r[k])) && DigitsValue(r) == v.n
    ensures v.Num? && v.n < 0 ==>
      |r| >= 2 && r[0] == '-' && (forall k :: 0 <= k < |r| - 1 ==> IsDigit(r[1..][k]))
      && DigitsValue(r[1..]) == -v.n
    ensures v.Num? ==> r == IntToString(v.n)
    ensures !v.Str? ==> Lacks(r, '{')
  {
    match v
    case Str(s) => s
    case Num(n) => IntToString(n)
    case Bool(b) => if b then "true" else "false"
  }

  /** The token a key is substituted for: the key upper-cased between double braces. */
  function Placeholder(key: string): (p: string)
    ensures |p| == |key| + 4
    ensures p[..2] == "{{" && p[|p| - 2..] == "}}"
    ensures p[2..|p| - 2] == ToUpper(key)
  {
    "{{" + ToUpper(key) + "}}"
  }

  /** `processPrompt`: a left fold of replace-all over the entries, in order. */
  function ProcessPrompt(template: string, vars: seq<(string, Value)>): (r: string)
    ensures Lacks(template, '{') ==> r == template
    decreases |vars|
  {
    if |vars| == 0 then template
    else
      var pat := Placeholder(vars[0].0);
      assert pat[..2][0] == '{';
      ProcessPrompt(ReplaceAll(template, pat, ValueString(vars[0].1)), vars[1..])
  }

  /** `loadAndProcessPrompt`: a failed load propagates and nothing is substituted. */
  function LoadAndProcessPrompt(name: string, vars: seq<(string, Value)>,
                                load: string -> Result<string, string>): (r: Result<string, string>)
    ensures r.Ok? <==> load(name).Ok?
    ensures r.Ok? ==> r.value == ProcessPrompt(load(name).value, vars)
    ensures r.Err? ==> r.error == "Prompt " + name + " não encontrado"
  {
    match load(name)
    case Err(_) => Err("Prompt " + name + " não encontrado")
    case Ok(template) => Ok(ProcessPrompt(template, vars))
  }

  // ----- Properties of the substitution -----

  /** With no variables the template is returned unchanged. */
  lemma NoVariablesIdentity(template: string)
    ensures ProcessPrompt(template, []) == template
  {
  }

  /** Processing `vars` then one more entry is one more replace-all on the result. */
  lemma {:induction false} ProcessPromptSnoc(template: string, vars: seq<(string, Value)>, key: string, v: Value)
    ensures ProcessPrompt(template, vars + [(key, v)])
            == ReplaceAll(ProcessPrompt(template, vars), Placeholder(key), ValueString(v))
    decreases |vars|
  {
    if |vars| == 0 {
      assert vars + [(key, v)] == [(key, v)];
    } else {
      assert (vars + [(key, v)])[1..] == vars[1..] + [(key, v)];
      ProcessPromptSnoc(ReplaceAll(template, Placeholder(vars[0].0), ValueString(vars[0].1)), vars[1..], key, v);
    }
  }

  /**
   * One variable: every occurrence of its placeholder is replaced by the value
   * and the text between occurrences is kept.
   */
  lemma EveryOccurrenceReplaced(template: string, key: string, v: Value)
    ensures ProcessPrompt(template, [(key, v)])
            == JoinWith(SplitOn(template, Placeholder(key)), ValueString(v))
  {
    ReplaceAllIsSplitJoin(template, Placeholder(key), ValueString(v));
  }

  /** A template holding none of the variables' placeholders passes through untouched. */
  lemma {:induction false} UnmatchedPassThrough(template: string, vars: seq<(string, Value)>)
    requires forall k :: 0 <= k < |vars| ==> !Contains(template, Placeholder(vars[k].0))
    ensures ProcessPrompt(template, vars) == template
    decreases |vars|
  {
    if |vars| > 0 {
      ReplaceAllAbsent(template, Placeholder(vars[0].0), ValueString(vars[0].1));
      UnmatchedPassThrough(template, vars[1..]);
    }
  }

  /** A text with no `{` cannot hold a placeholder. */
  lemma NoBraceNoPlaceholder(s: string, key: string)
    requires Lacks(s, '{')
    ensures !Contains(s, Placeholder(key))
  {
    forall i | 0 <= i <= |s| - |Placeholder(key)|
      ensures !OccursAt(s, Placeholder(key), i)
    {
      assert Placeholder(key)[0] == '{';
    }
  }

  /** Joining `{`-free pieces with a `{`-free separator gives a `{`-free text. */
  lemma {:induction false} JoinLacks(pieces: seq<string>, sep: string, c: char)
    requires |pieces| >= 1
    requires forall k :: 0 <= k < |pieces| ==> Lacks(pieces[k], c)
    requires Lacks(sep, c)
    ensures Lacks(JoinWith(pieces, sep), c)
  {
    if |pieces| > 1 {
      JoinLacks(pieces[1..], sep, c);
    }
  }

  /** Some non-empty proper prefix of `pat` ends `p`: `pat` could be completed by what follows. */
  predicate EndsWithPartial(p: string, pat: string) {
    exists m | 0 < m < |pat| && m <= |p| :: p[|p| - m..] == pat[..m]
  }

  /**
   * Joining pieces that hold no `pat` gives a text without `pat`, provided
   * the separator cannot start one and no piece but the last ends with a
   * beginning of `pat`.
   */
  lemma {:induction false} JoinNoOccurrence(pieces: seq<string>, sep: string, pat: string)
    requires |pieces| >= 1 && |pat| > 0
    requires Lacks(sep, pat[0])
    requires forall k :: 0 <= k < |pieces| ==> !Contains(pieces[k], pat)
    requires forall k :: 0 <= k < |pieces| - 1 ==> !EndsWithPartial(pieces[k], pat)
    ensures !Contains(JoinWith(pieces, sep), pat)
    decreases |pieces|
  {
    if |pieces| > 1 {
      var p0, rest := pieces[0], JoinWith(pieces[1..], sep);
      JoinNoOccurrence(pieces[1..], sep, pat);
      var t := JoinWith(pieces, sep);
      assert t == p0 + sep + rest;
      forall i | 0 <= i <= |t| - |pat|
        ensures !OccursAt(t, pat, i)
      {
        if i + |pat| <= |p0| {
          assert t[i..i + |pat|] == p0[i..i + |pat|];
          assert !OccursAt(p0, pat, i);
        } else if i < |p0| {
          var m := |p0| - i;
          assert !(p0[|p0| - m..] == pat[..m]);
          assert t[i..i + |pat|][..m] == t[i..|p0|];
          assert t[i..|p0|] == p0[i..];
        } else if i < |p0| + |sep| {
          assert t[i..i + |pat|][0] == sep[i - |p0|];
        } else {
          var j := i - |p0| - |sep|;
          assert t[i..i + |pat|] == rest[j..j + |pat|];
          assert !OccursAt(rest, pat, j);
        }
      }
    }
  }

  /**
   * When the value has no `{` and no piece of the template before a
   * placeholder ends with the start of one, no placeholder for the key is
   * left after substitution.
   */
  lemma NoPlaceholderRemains(template: string, key: string, v: Value)
    requires Lacks(ValueString(v), '{')
    requires forall k :: 0 <= k < |SplitOn(template, Placeholder(key))| - 1 ==>
      !EndsWithPartial(SplitOn(template, Placeholder(key))[k], Placeholder(key))
    ensures !Contains(ProcessPrompt(template, [(key, v)]), Placeholder(key))
  {
    EveryOccurrenceReplaced(template, key, v);
    assert Placeholder(key)[..2][0] == '{';
    JoinNoOccurrence(SplitOn(template, Placeholder(key)), ValueString(v), Placeholder(key));
  }

  /** In particular a template whose only `{` are those of the key's placeholders is fully substituted. */
  lemma BraceFreePiecesFullySubstituted(template: string, key: string, v: Value)
    requires forall k :: 0 <= k < |SplitOn(template, Placeholder(key))| ==>
      Lacks(SplitOn(template, Placeholder(key))[k], '{')
    requires Lacks(ValueString(v), '{')
    ensures !Contains(ProcessPrompt(template, [(key, v)]), Placeholder(key))
  {
    var pieces, pat := SplitOn(template, Placeholder(key)), Placeholder(key);
    assert pat[..2][0] == '{';
    forall k | 0 <= k < |pieces| - 1
      ensures !EndsWithPartial(pieces[k], pat)
    {
      forall m | 0 < m < |pat| && m <= |pieces[k]|
        ensures pieces[k][|pieces[k]| - m..] != pat[..m]
      {
        assert pieces[k][|pieces[k]| - m..][0] == pieces[k][|pieces[k]| - m];
      }
    }
    NoPlaceholderRemains(template, key, v);
  }

  /** A text lacking one of the pattern's characters does not contain the pattern. */
  lemma LacksCharNoOccurrence(s: string, pat: string, m: nat)
    requires m < |pat| && Lacks(s, pat[m])
    ensures !Contains(s, pat)
  {
    forall i | 0 <= i <= |s| - |pat|
      ensures !OccursAt(s, pat, i)
    {
      assert s[i..i + |pat|][m] == s[i + m];
    }
  }

  /** The token for key `id` is `{{ID}}`. */
  lemma PlaceholderOfId()
    ensures Placeholder("id") == "{{ID}}"
  {
    assert ToUpper("id") == "ID";
  }

  /** Placeholders are case-sensitive: `{{id}}` is not the token for key `id` and stays. */
  lemma LowerCasePlaceholderKept()
    ensures ProcessPrompt("Relato {{id}}", [("id", Str("R1"))]) == "Relato {{id}}"
  {
    PlaceholderOfId();
    var lower := "Relato {{id}}";
    assert Lacks(lower, 'I');
    LacksCharNoOccurrence(lower, "{{ID}}", 2);
    var vars := [("id", Str("R1"))];
    assert forall k :: 0 <= k < |vars| ==> vars[k].0 == "id";
    UnmatchedPassThrough(lower, vars);
  }

  /** Text before the first `{` is copied through when the pattern starts with `{`. */
  lemma ReplaceAllSkipsBraceFree(pre: string, t: string, pat: string, rep: string)
    requires |pat| > 0 && pat[0] == '{' && Lacks(pre, '{')
    ensures ReplaceAll(pre + t, pat, rep) == pre + ReplaceAll(t, pat, rep)
  {
    ReplaceAllSkipsPrefix(pre, t, pat, rep);
  }

  /** The upper-cased token `{{ID}}` is replaced by the value of key `id`. */
  lemma UpperCasePlaceholderReplaced()
    ensures ProcessPrompt("Relato {{ID}}", [("id", Str("R1"))]) == "Relato R1"
  {
    PlaceholderOfId();
    var pre, pat := "Relato ", "{{ID}}";
    assert Lacks(pre, '{');
    ReplaceAllSkipsBraceFree(pre, pat, pat, "R1");
    assert pat[..|pat|] == pat && pat[|pat|..] == "";
    assert ReplaceAll(pat, pat, "R1") == "R1";
    assert pre + pat == "Relato {{ID}}";
    assert ProcessPrompt("Relato {{ID}}", [("id", Str("R1"))]) == ProcessPrompt("Relato R1", []);
  }

  /** A prefix in which no occurrence of the pattern starts is copied through. */
  lemma {:induction false} ReplaceAllSkipsPrefix(pre: string, t: string, pat: string, rep: string)
    requires |pat| > 0
    requires forall k :: 0 <= k < |pre| ==> !OccursAt(pre + t, pat, k)
    ensures ReplaceAll(pre + t, pat, rep) == pre + ReplaceAll(t, pat, rep)
    decreases |pre|
  {
    if |pre| > 0 {
      var s := pre + t;
      assert !OccursAt(s, pat, 0);
      assert s[1..] == pre[1..] + t;
      forall k | 0 <= k < |pre[1..]|
        ensures !OccursAt(pre[1..] + t, pat, k)
      {
        assert !OccursAt(s, pat, k + 1);
        OccursShift(s[0], s[1..], pat, k);
        assert [s[0]] + s[1..] == s;
      }
      ReplaceAllSkipsPrefix(pre[1..], t, pat, rep);
      assert ReplaceAll(s[1..], pat, rep) == pre[1..] + ReplaceAll(t, pat, rep);
      assert s[0] == pre[0] && [pre[0]] + pre[1..] == pre;
      if |s| < |pat| {
        assert ReplaceAll(t, pat, rep) == t;
        assert ReplaceAll(s, pat, rep) == s;
      } else {
        assert s[..|pat|] != pat;
        assert ReplaceAll(s, pat, rep) == [s[0]] + ReplaceAll(s[1..], pat, rep);
        assert ReplaceAll(s, pat, rep) == ([pre[0]] + pre[1..]) + ReplaceAll(t, pat, rep);
      }
      assert ReplaceAll(s, pat, rep) == pre + ReplaceAll(t, pat, rep);
    } else {
      assert pre + t == t;
    }
  }

  /**
   * Why `NoPlaceholderRemains` needs its hypothesis on the pieces: when the
   * template nests braces around a placeholder, the piece before it ends with
   * `{{A` and the substituted value can complete a new placeholder. Key `abc` with
   * value `B` turns `{{A{{ABC}}C}}` into `{{ABC}}`.
   */
  lemma NestedBracesCanRebuildPlaceholder()
    ensures Placeholder("abc") == "{{ABC}}"
    ensures ProcessPrompt("{{A" + "{{ABC}}" + "C}}", [("abc", Str("B"))]) == "{{ABC}}"
  {
    assert ToUpper("abc") == "ABC";
    var pre, pat, post := "{{A", "{{ABC}}", "C}}";
    var s := pre + (pat + post);
    assert s[3] != pat[3] && s[2] != pat[1] && s[2] != pat[0];
    assert !OccursAt(s, pat, 0) by { assert s[0..7][3] == s[3]; }
    assert !OccursAt(s, pat, 1) by { assert s[1..8][1] == s[2]; }
    assert !OccursAt(s, pat, 2) by { assert s[2..9][0] == s[2]; }
    ReplaceAllSkipsPrefix(pre, pat + post, pat, "B");
    assert (pat + post)[..|pat|] == pat && (pat + post)[|pat|..] == post;
    assert ReplaceAll(post, pat, "B") == post;
    assert ReplaceAll(pat + post, pat, "B") == "B" + post;
    assert pre + ("B" + post) == pat;
    assert pre + pat + post == s;
  }
}

=== FILE: relato_model.dfy ===
/**
 * The fraud-report record (`RelatoInfracao`) and its schema rules: every nested
 * field is required, `idRelato` is unique across the collection, `statusRelato`
 * defaults to `EM_ANALISE`, `scoreAnalise` is optional, and a save refreshes
 * `dataAtualizacao`.
 *
 * Money is in integer cents, timestamps are integer milliseconds, and
 * document identifiers (`_id`) are strings.
 */
module RelatoModel {
  import opened Wrappers

  const DefaultStatus: string := "EM_ANALISE"

  datatype Transacao = Transacao(
    endToEndId: string,
    txid: string,
    valor: int,
    dataHoraTransacao: int,
    tipoIniciacao: string)

  datatype Pagador = Pagador(
    cpf: string,
    nome: string,
    agencia: string,
    conta: string,
    instituicao: string,
    perfilRisco: string)

  datatype ContaRecebedor = ContaRecebedor(
    agencia: string,
    numero: string,
    dataAbertura: int,
    scoreRiscoConta: int)

  datatype Recebedor = Recebedor(
    cpfCnpj: string,
    nome: string,
    chavePix: string,
    instituicao: string,
    conta: ContaRecebedor)

  datatype EvidenciaAnexada = EvidenciaAnexada(tipo: string, url: string)

  datatype AvaliacaoFraude = AvaliacaoFraude(
    motivoRelato: string,
    subtipoGolpe: string,
    descricaoUsuario: string,
    evidenciasAnexadas: seq<EvidenciaAnexada>)

  datatype DispositivoTransacao = DispositivoTransacao(
    idDispositivo: string,
    localizacaoIp: string,
    novoDispositivo: bool)

  datatype MetadadosAnalise = MetadadosAnalise(
    relatosAnterioresRecebedor: int,
    valorMedioTransacoesRecebedor: int,
    historicoPagadorConsistente: bool,
    dispositivoTransacao: DispositivoTransacao)

  /** A stored report. `id` is the document identifier the database assigns. */
  datatype RelatoInfracao = RelatoInfracao(
    id: string,
    idRelato: string,
    dataHoraRelato: int,
    statusRelato: string,
    transacao: Transacao,
    pagador: Pagador,
    recebedor: Recebedor,
    avaliacaoFraude: AvaliacaoFraude,
    metadadosAnalise: MetadadosAnalise,
    scoreAnalise: Option<int>,
    dataCriacao: int,
    dataAtualizacao: int)

  /** The collection, in insertion order. */
  type Store = seq<RelatoInfracao>

  // A `required: true` String path rejects both a missing value and "".

  predicate TransacaoComplete(t: Transacao) {
    t.endToEndId != "" && t.txid != "" && t.tipoIniciacao != ""
  }

  predicate PagadorComplete(p: Pagador) {
    p.cpf != "" && p.nome != "" && p.agencia != "" && p.conta != ""
    && p.instituicao != "" && p.perfilRisco != ""
  }

  predicate RecebedorComplete(r: Recebedor) {
    r.cpfCnpj != "" && r.nome != "" && r.chavePix != "" && r.instituicao != ""
    && r.conta.agencia != "" && r.conta.numero != ""
  }

  predicate AvaliacaoComplete(a: AvaliacaoFraude) {
    a.motivoRelato != "" && a.subtipoGolpe != "" && a.descricaoUsuario != ""
    && forall k :: 0 <= k < |a.evidenciasAnexadas| ==>
         a.evidenciasAnexadas[k].tipo != "" && a.evidenciasAnexadas[k].url != ""
  }

  predicate MetadadosComplete(m: MetadadosAnalise) {
    m.dispositivoTransacao.idDispositivo != "" && m.dispositivoTransacao.localizacaoIp != ""
  }

  /** The document passes the schema's `required` validators. */
  predicate SchemaValid(r: RelatoInfracao) {
    && r.idRelato != ""
    && r.statusRelato != ""
    && TransacaoComplete(r.transacao)
    && PagadorComplete(r.pagador)
    && RecebedorComplete(r.recebedor)
    && AvaliacaoComplete(r.avaliacaoFraude)
    && MetadadosComplete(r.metadadosAnalise)
  }

  /** The pre-save hook touches only `dataAtualizacao`, so saving never changes whether a document validates. */
  lemma SaveKeepsValidity(r: RelatoInfracao, now: int)
    ensures SchemaValid(Save(r, now)) <==> SchemaValid(r)
  {
  }

  /** The unique index on `idRelato`. */
  predicate UniqueIds(store: Store) {
    forall i, j :: 0 <= i < j < |store| ==> store[i].idRelato != store[j].idRelato
  }

  /** Some stored report carries `idRelato`. */
  predicate HasIdRelato(store: Store, idRelato: string) {
    exists k :: 0 <= k < |store| && store[k].idRelato == idRelato
  }

  /** `findOne({ idRelato })`: the position of the first report with that identifier. */
  function FindIdRelato(store: Store, idRelato: string): (r: Option<nat>)
    ensures r.None? <==> !HasIdRelato(store, idRelato)
    ensures r.Some? ==> r.value < |store| && store[r.value].idRelato == idRelato
    ensures r.Some? ==> forall k :: 0 <= k < r.value ==> store[k].idRelato != idRelato
  {
    if |store| == 0 then None
    else if store[0].idRelato == idRelato then Some(0)
    else
      match FindIdRelato(store[1..], idRelato)
      case None => None
      case Some(k) => Some(k + 1)
  }

  /** The `pre('save')` hook: a save stamps `dataAtualizacao` with the current time. */
  function Save(r: RelatoInfracao, now: int): (saved: RelatoInfracao)
    ensures saved.dataAtualizacao == now
    ensures saved.(dataAtualizacao := r.dataAtualizacao) == r
  {
    r.(dataAtualizacao := now)
  }

  /** Under a unique index, a found identifier names exactly one report. */
  lemma UniqueFindIsOnlyMatch(store: Store, idRelato: string, k: nat)
    requires UniqueIds(store)
    requires FindIdRelato(store, idRelato) == Some(k)
    ensures forall j :: 0 <= j < |store| && j != k ==> store[j].idRelato != idRelato
  {
    forall j | 0 <= j < |store| && j != k
      ensures store[j].idRelato != idRelato
    {
      if j < k {
      } else {
        assert store[k].idRelato == idRelato;
      }
    }
  }

  /** Appending a report whose identifier is new keeps the index unique. */
  lemma AppendFreshKeepsUnique(store: Store, r: RelatoInfracao)
    requires UniqueIds(store)
    requires !HasIdRelato(store, r.idRelato)
    ensures UniqueIds(store + [r])
  {
    var s' := store + [r];
    forall i, j | 0 <= i < j < |s'|
      ensures s'[i].idRelato != s'[j].idRelato
    {
      if j == |store| {
        assert s'[i] == store[i];
      }
    }
  }
}

=== FILE: relatos_route.dfy ===
/**
 * `POST /api/relatos` and `GET /api/relatos` over an in-memory collection.
 * POST checks the required top-level fields, rejects a duplicate `idRelato`,
 * and inserts the report with the default status; GET filters by status,
 * sorts by `dataCriacao` descending, skips and limits, and counts pages.
 */
module RelatosRoute {
  import opened Wrappers
  import opened RelatoModel

  // ----- POST -----

  /**
   * The request body; `None` is a key the body does not carry. The body is
   * spread into the new document, so besides the fields the handler reads it
   * may also preset `scoreAnalise` and `dataCriacao`.
   */
  datatype Payload = Payload(
    idRelato: Option<string>,
    dataHoraRelato: Option<int>,
    statusRelato: Option<string>,
    transacao: Option<Transacao>,
    pagador: Option<Pagador>,
    recebedor: Option<Recebedor>,
    avaliacaoFraude: Option<AvaliacaoFraude>,
    metadadosAnalise: Option<MetadadosAnalise>,
    scoreAnalise: Option<int>,
    dataCriacao: Option<int>)

  datatype CreateResponse =
    | Created(id: string, idRelato: string, status: string)   // 201
    | MissingFields                                           // 400
    | Duplicate                                               // 409
    | ServerError                                             // 500: the save threw

  /** The handler's first guard: each of the five fields is present and truthy. */
  predicate HasRequiredFields(p: Payload) {
    && p.idRelato.Some? && p.idRelato.value != ""
    && p.transacao.Some? && p.pagador.Some? && p.recebedor.Some? && p.avaliacaoFraude.Some?
  }

  /**
   * The document `new RelatoInfracao({ ...body, ... })` describes, saved at
   * `now`: every field the body carries, the schema defaults for the status
   * and the creation date, and the save time as `dataAtualizacao`.
   */
  function RecordOf(p: Payload, id: string, now: int): (r: RelatoInfracao)
    requires HasRequiredFields(p)
    ensures r.id == id && r.idRelato == p.idRelato.value
    ensures r.transacao == p.transacao.value && r.pagador == p.pagador.value
    ensures r.recebedor == p.recebedor.value && r.avaliacaoFraude == p.avaliacaoFraude.value
    ensures p.dataHoraRelato.Some? ==> r.dataHoraRelato == p.dataHoraRelato.value
    ensures p.metadadosAnalise.Some? ==> r.metadadosAnalise == p.metadadosAnalise.value
    ensures r.statusRelato == p.statusRelato.GetOr(DefaultStatus)
    ensures r.scoreAnalise == p.scoreAnalise
    ensures r.dataCriacao == p.dataCriacao.GetOr(now) && r.dataAtualizacao == now
  {
    var draft := RelatoInfracao(
      id, p.idRelato.value,
      p.dataHoraRelato.GetOr(0),
      p.statusRelato.GetOr(DefaultStatus),
      p.transacao.value, p.pagador.value, p.recebedor.value, p.avaliacaoFraude.value,
      p.metadadosAnalise.GetOr(MetadadosAnalise(0, 0, false, DispositivoTransacao("", "", false))),
      p.scoreAnalise, p.dataCriacao.GetOr(now), now);
    Save(draft, now)
  }

  /**
   * The document the save would write, or `None` when the save throws: an
   * unset `dataHoraRelato` is an invalid date, an unset `metadadosAnalise`
   * fails its `required` validator, and so does any empty required string.
   */
  function BuildRecord(p: Payload, id: string, now: int): (r: Option<RelatoInfracao>)
    requires HasRequiredFields(p)
    ensures r.None? <==>
      p.dataHoraRelato.None? || p.metadadosAnalise.None?
      || !SchemaValid(RecordOf(p, id, now))
    ensures r.Some? ==> SchemaValid(r.value)
    ensures r.Some? ==>
      && r.value.id == id
      && r.value.idRelato == p.idRelato.value
      && r.value.dataHoraRelato == p.dataHoraRelato.value
      && r.value.statusRelato == p.statusRelato.GetOr(DefaultStatus)
      && r.value.transacao == p.transacao.value
      && r.value.pagador == p.pagador.value
      && r.value.recebedor == p.recebedor.value
      && r.value.avaliacaoFraude == p.avaliacaoFraude.value
      && r.value.metadadosAnalise == p.metadadosAnalise.value
      && r.value.scoreAnalise == p.scoreAnalise
      && r.value.dataCriacao == p.dataCriacao.GetOr(now)
      && r.value.dataAtualizacao == now
  {
    if p.dataHoraRelato.None? || p.metadadosAnalise.None? then None
    else
      var r := RecordOf(p, id, now);
      if SchemaValid(r) then Some(r) else None
  }

  /**
   * `POST /api/relatos`. `id` is the identifier the database assigns to a new
   * document and `now` the current time.
   */
  function Create(store: Store, p: Payload, id: string, now: int): (out: (CreateResponse, Store))
    ensures out.0 == MissingFields <==> !HasRequiredFields(p)
    ensures out.0 == Duplicate <==> HasRequiredFields(p) && HasIdRelato(store, p.idRelato.value)
    ensures out.0.Created? <==>
      HasRequiredFields(p) && !HasIdRelato(store, p.idRelato.value) && BuildRecord(p, id, now).Some?
    ensures !out.0.Created? ==> out.1 == store
    ensures out.0.Created? ==>
      && out.1 == store + [BuildRecord(p, id, now).value]
      && out.0 == Created(id, p.idRelato.value, p.statusRelato.GetOr(DefaultStatus))
      && SchemaValid(out.1[|store|])
  {
    if !HasRequiredFields(p) then (MissingFields, store)
    else if FindIdRelato(store, p.idRelato.value).Some? then (Duplicate, store)
    else
      match BuildRecord(p, id, now)
      case None => (ServerError, store)
      case Some(r) => (Created(id, r.idRelato, r.statusRelato), store + [r])
  }

  /** A successful POST keeps `idRelato` unique across the collection. */
  lemma CreatePreservesUniqueness(store: Store, p: Payload, id: string, now: int)
    requires UniqueIds(store)
    ensures UniqueIds(Create(store, p, id, now).1)
  {
    var out := Create(store, p, id, now);
    if out.0.Created? {
      AppendFreshKeepsUnique(store, out.1[|store|]);
    }
  }

  /** A body without a status is stored as `EM_ANALISE`. */
  lemma CreateDefaultsStatus(store: Store, p: Payload, id: string, now: int)
    requires p.statusRelato.None?
    requires Create(store, p, id, now).0.Created?
    ensures Create(store, p, id, now).1[|store|].statusRelato == "EM_ANALISE"
    ensures Create(store, p, id, now).0.status == "EM_ANALISE"
  {
  }

  /**
   * The spread stores what the body says: a body that presets a score and a
   * creation date is stored with them, so an accepted report can arrive
   * already scored and dated at will.
   */
  lemma CreateKeepsBodyScoreAndDate(store: Store, p: Payload, id: string, now: int, score: int, created: int)
    requires p.scoreAnalise == Some(score) && p.dataCriacao == Some(created)
    requires Create(store, p, id, now).0.Created?
    ensures Create(store, p, id, now).1[|store|].scoreAnalise == Some(score)
    ensures Create(store, p, id, now).1[|store|].dataCriacao == created
  {
  }

  /** A body that presets neither is stored unscored and created now. */
  lemma CreateDefaultsScoreAndDate(store: Store, p: Payload, id: string, now: int)
    requires p.scoreAnalise.None? && p.dataCriacao.None?
    requires Create(store, p, id, now).0.Created?
    ensures Create(store, p, id, now).1[|store|].scoreAnalise.None?
    ensures Create(store, p, id, now).1[|store|].dataCriacao == now
  {
  }

  // ----- GET -----

  /** `dataCriacao` never increases along `s`. */
  predicate SortedByDateDesc(s: seq<RelatoInfracao>) {
    forall i, j :: 0 <= i < j < |s| ==> s[i].dataCriacao >= s[j].dataCriacao
  }

  /** Insert `x` before the first report that is not newer, keeping earlier reports first among ties. */
  function InsertByDate(x: RelatoInfracao, s: seq<RelatoInfracao>): (r: seq<RelatoInfracao>)
    ensures |r| == |s| + 1
  {
    if |s| == 0 then [x]
    else if x.dataCriacao >= s[0].dataCriacao then [x] + s
    else [s[0]] + InsertByDate(x, s[1..])
  }

  /** Insertion adds exactly the one report. */
  lemma {:induction false} InsertByDatePermutes(x: RelatoInfracao, s: seq<RelatoInfracao>)
    ensures multiset(InsertByDate(x, s)) == multiset(s) + multiset{x}
  {
    if |s| > 0 && x.dataCriacao < s[0].dataCriacao {
      InsertByDatePermutes(x, s[1..]);
      assert s == [s[0]] + s[1..];
    }
  }

  /** A bound on every date of `s` and of `x` bounds every date after insertion. */
  lemma {:induction false} InsertByDateBounded(x: RelatoInfracao, s: seq<RelatoInfracao>, bound: int)
    requires x.dataCriacao <= bound
    requires forall k :: 0 <= k < |s| ==> s[k].dataCriacao <= bound
    ensures forall k :: 0 <= k < |InsertByDate(x, s)| ==> InsertByDate(x, s)[k].dataCriacao <= bound
  {
    if |s| > 0 && x.dataCriacao < s[0].dataCriacao {
      InsertByDateBounded(x, s[1..], bound);
    }
  }

  /** A report no older than every report of a sorted list can head it. */
  lemma ConsSorted(a: RelatoInfracao, t: seq<RelatoInfracao>)
    requires SortedByDateDesc(t)
    requires forall k :: 0 <= k < |t| ==> t[k].dataCriacao <= a.dataCriacao
    ensures SortedByDateDesc([a] + t)
  {
    var r := [a] + t;
    forall i, j | 0 <= i < j < |r|
      ensures r[i].dataCriacao >= r[j].dataCriacao
    {
      assert r[j] == t[j - 1];
      if i > 0 {
        assert r[i] == t[i - 1];
      }
    }
  }

  /** Insertion into a date-descending list keeps it date-descending. */
  lemma {:induction false} InsertByDateSorted(x: RelatoInfracao, s: seq<RelatoInfracao>)
    requires SortedByDateDesc(s)
    ensures SortedByDateDesc(InsertByDate(x, s))
  {
    if |s| == 0 {
    } else if x.dataCriacao >= s[0].dataCriacao {
      ConsSorted(x, s);
    } else {
      var rest := s[1..];
      assert SortedByDateDesc(rest) by {
        forall i, j | 0 <= i < j < |rest|
          ensures rest[i].dataCriacao >= rest[j].dataCriacao
        {
          assert rest[i] == s[i + 1] && rest[j] == s[j + 1];
        }
      }
      InsertByDateSorted(x, rest);
      assert forall k :: 0 <= k < |rest| ==> rest[k] == s[k + 1];
      InsertByDateBounded(x, rest, s[0].dataCriacao);
      ConsSorted(s[0], InsertByDate(x, rest));
    }
  }

  /** `.sort({ dataCriacao: -1 })`, ties kept in collection order. */
  function SortByDateDesc(s: seq<RelatoInfracao>): (r: seq<RelatoInfracao>)
    ensures SortedByDateDesc(r)
    ensures multiset(r) == multiset(s)
    ensures |r| == |s|
  {
    if |s| == 0 then []
    else
      var rest := SortByDateDesc(s[1..]);
      InsertByDateSorted(s[0], rest);
      InsertByDatePermutes(s[0], rest);
      assert s == [s[0]] + s[1..];
      assert multiset(s) == multiset(s[1..]) + multiset{s[0]};
      InsertByDate(s[0], rest)
  }

  /** `find({ statusRelato: status })`. */
  function FilterByStatus(s: seq<RelatoInfracao>, status: string): (r: seq<RelatoInfracao>)
    ensures forall y :: y in r <==> y in s && y.statusRelato == status
    ensures forall y :: multiset(r)[y] == if y.statusRelato == status then multiset(s)[y] else 0
    ensures |r| <= |s|
  {
    if |s| == 0 then []
    else
      var rest := FilterByStatus(s[1..], status);
      assert s == [s[0]] + s[1..];
      assert forall y :: y in s <==> y == s[0] || y in s[1..];
      assert multiset(s) == multiset{s[0]} + multiset(s[1..]);
      if s[0].statusRelato == status then [s[0]] + rest else rest
  }

  /** The query: a status filter when `status` is given and non-empty, otherwise everything. */
  function Matching(store: Store, status: Option<string>): (r: seq<RelatoInfracao>)
    ensures status.Some? && status.value != "" ==>
      forall y :: y in r <==> y in store && y.statusRelato == status.value
    ensures status.Some? && status.value != "" ==>
      forall y :: multiset(r)[y] == if y.statusRelato == status.value then multiset(store)[y] else 0
    ensures status.None? || status.value == "" ==> r == store
  {
    if status.Some? && status.value != "" then FilterByStatus(store, status.value) else store
  }

  datatype ListResponse =
    | Listed(relatos: seq<RelatoInfracao>, totalPages: Option<int>, currentPage: int, total: nat)
    | ListFailed   // 500: the database rejected a negative skip

  /** `Math.ceil(total / limit)` for a non-zero limit. */
  function CeilDiv(total: nat, limit: int): (q: int)
    requires limit != 0
    ensures limit > 0 ==> (q - 1) * limit < total <= q * limit
    ensures limit < 0 ==> q <= 0
    ensures limit < 0 ==> q * limit <= total < (q - 1) * limit
  {
    if limit > 0 then (total + limit - 1) / limit
    else
      NegativeCeil(total, -limit);
      -(total / -limit)
  }

  /** `Math.ceil` of `total / -m` for a positive `m` is `-(total / m)`. */
  lemma NegativeCeil(total: nat, m: int)
    requires m > 0
    ensures -(total / m) * -m <= total < (-(total / m) - 1) * -m
  {
    var d := total / m;
    assert total == d * m + total % m && 0 <= total % m < m;
    MulNegNeg(d, m);
    MulNegNeg(d + 1, m);
  }

  lemma MulNegNeg(a: int, b: int)
    ensures -a * -b == a * b
  {
  }

  function Min(a: int, b: int): int {
    if a < b then a else b
  }

  function Abs(a: int): nat {
    if a < 0 then -a else a
  }

  /**
   * `.skip(skip).limit(limit)`: drop `skip` items, then keep at most `limit`
   * of the rest; a limit of 0 keeps all, a negative one keeps its absolute value.
   */
  function Window<T>(s: seq<T>, skip: nat, limit: int): (w: seq<T>)
    ensures limit != 0 ==> |w| <= Abs(limit)
    ensures limit == 0 ==> w == s[Min(skip, |s|)..]
    ensures limit != 0 ==> w == s[Min(skip, |s|)..Min(skip, |s|) + Min(Abs(limit), |s| - Min(skip, |s|))]
  {
    var rest := s[Min(skip, |s|)..];
    if limit == 0 then rest else rest[..Min(Abs(limit), |rest|)]
  }

  /**
   * `GET /api/relatos?page&limit&status`. A limit of 0 returns every match and
   * `totalPages` is not a number (`None`); a negative limit returns at most
   * its absolute value; a negative skip fails.
   */
  function List(store: Store, status: Option<string>, page: int, limit: int): (resp: ListResponse)
    ensures resp.ListFailed? <==> (page - 1) * limit < 0
    ensures resp.Listed? ==> resp.total == |Matching(store, status)| && resp.currentPage == page
    ensures resp.Listed? ==> (resp.totalPages.None? <==> limit == 0)
    ensures resp.Listed? && limit != 0 ==> |resp.relatos| <= Abs(limit)
    ensures resp.Listed? && limit == 0 ==> resp.relatos == SortByDateDesc(Matching(store, status))
    ensures resp.Listed? && limit < 0 && page == 1 ==>
      var sorted := SortByDateDesc(Matching(store, status));
      resp.relatos == sorted[..Min(-limit, |sorted|)]
  {
    var matching := Matching(store, status);
    var skip := (page - 1) * limit;
    assert limit == 0 || page == 1 ==> skip == 0;
    if skip < 0 then ListFailed
    else
      Listed(Window(SortByDateDesc(matching), skip, limit),
             if limit == 0 then None else Some(CeilDiv(|matching|, limit)), page, |matching|)
  }

  /** The page of the sorted matches a positive page number and limit select. */
  function PageOf(sorted: seq<RelatoInfracao>, page: int, limit: int): seq<RelatoInfracao>
    requires page >= 1 && limit >= 1
  {
    var lo := Min((page - 1) * limit, |sorted|);
    var hi := Min(lo + limit, |sorted|);
    sorted[lo..hi]
  }

  /** A slice of a date-sorted sequence is date-sorted. */
  lemma SliceSorted(s: seq<RelatoInfracao>, lo: int, hi: int)
    requires SortedByDateDesc(s) && 0 <= lo <= hi <= |s|
    ensures SortedByDateDesc(s[lo..hi])
  {
    var t := s[lo..hi];
    forall i, j | 0 <= i < j < |t|
      ensures t[i].dataCriacao >= t[j].dataCriacao
    {
      assert t[i] == s[lo + i] && t[j] == s[lo + j];
    }
  }

  /** Every report in the sorted matches is a stored report that satisfies the filter. */
  lemma SortedMatchesAreMatches(store: Store, status: Option<string>, y: RelatoInfracao)
    requires y in SortByDateDesc(Matching(store, status))
    ensures y in store
    ensures status.Some? && status.value != "" ==> y.statusRelato == status.value
  {
    assert y in multiset(SortByDateDesc(Matching(store, status)));
    assert y in Matching(store, status);
  }

  /** A product of non-negative numbers is non-negative. */
  lemma MulNonNegative(a: int, b: int)
    requires a >= 0 && b >= 0
    ensures a * b >= 0
  {
  }

  /** With a positive limit the window is the slice of at most `limit` items after the skipped ones. */
  lemma WindowPositive<T>(s: seq<T>, skip: nat, limit: int)
    requires limit >= 1
    ensures Window(s, skip, limit) == s[Min(skip, |s|)..Min(Min(skip, |s|) + limit, |s|)]
  {
  }

  /** For page and limit at least 1 the reply is the `page`-th block of `limit` sorted matches. */
  lemma ListIsPage(store: Store, status: Option<string>, page: int, limit: int)
    requires page >= 1 && limit >= 1
    ensures List(store, status, page, limit).Listed?
    ensures List(store, status, page, limit).relatos == PageOf(SortByDateDesc(Matching(store, status)), page, limit)
  {
    MulNonNegative(page - 1, limit);
    var skip: nat := (page - 1) * limit;
    WindowPositive(SortByDateDesc(Matching(store, status)), skip, limit);
  }

  /**
   * For page and limit at least 1: the page holds at most `limit` reports, in
   * date order, each a stored report satisfying the filter, and `totalPages` is
   * the ceiling of `total / limit`.
   */
  lemma ListPage(store: Store, status: Option<string>, page: int, limit: int)
    requires page >= 1 && limit >= 1
    ensures var resp := List(store, status, page, limit);
      && resp.Listed?
      && |resp.relatos| <= limit
      && SortedByDateDesc(resp.relatos)
      && (forall y :: y in resp.relatos ==> y in store)
      && (status.Some? && status.value != "" ==> forall y :: y in resp.relatos ==> y.statusRelato == status.value)
      && resp.totalPages.Some?
      && (resp.totalPages.value - 1) * limit < resp.total <= resp.totalPages.value * limit
  {
    ListIsPage(store, status, page, limit);
    var sorted := SortByDateDesc(Matching(store, status));
    var lo := Min((page - 1) * limit, |sorted|);
    var hi := Min(lo + limit, |sorted|);
    var resp := List(store, status, page, limit);
    assert resp.relatos == sorted[lo..hi];
    SliceSorted(sorted, lo, hi);
    forall y | y in resp.relatos
      ensures y in store
      ensures status.Some? && status.value != "" ==> y.statusRelato == status.value
    {
      SortedMatchesAreMatches(store, status, y);
    }
  }

  /** The page number `k / limit + 1` of position `k` starts at or before `k` and is at most the page count. */
  lemma PageArithmetic(k: nat, limit: int, total: nat)
    requires limit >= 1 && k < total
    ensures (k / limit) * limit + k % limit == k && 0 <= k % limit < limit
    ensures k / limit + 1 <= CeilDiv(total, limit)
  {
  }

  /** Slot `r` of the block of at most `limit` items starting at `lo` is item `lo + r`. */
  lemma SliceAt<T>(s: seq<T>, lo: nat, r: nat, limit: int)
    requires r < limit && lo + r < |s|
    ensures r < |s[lo..Min(lo + limit, |s|)]|
    ensures s[lo..Min(lo + limit, |s|)][r] == s[lo + r]
  {
  }

  /** Position `k` of a sequence sits at slot `k % limit` of page `k / limit + 1`. */
  lemma PageHoldsPosition(sorted: seq<RelatoInfracao>, limit: int, k: nat)
    requires limit >= 1 && k < |sorted|
    ensures k % limit < |PageOf(sorted, k / limit + 1, limit)|
    ensures PageOf(sorted, k / limit + 1, limit)[k % limit] == sorted[k]
  {
    var q, r := k / limit, k % limit;
    PageArithmetic(k, limit, |sorted|);
    MulNonNegative(q, limit);
    var lo: nat := q * limit;
    assert (q + 1 - 1) * limit == lo;
    assert Min(lo, |sorted|) == lo;
    SliceAt(sorted, lo, r, limit);
  }

  /** Every match appears on the page its position selects, at the expected slot. */
  lemma EveryMatchOnSomePage(store: Store, status: Option<string>, limit: int, k: nat)
    requires limit >= 1
    requires k < |Matching(store, status)|
    ensures var page := k / limit + 1;
      && List(store, status, page, limit).Listed?
      && 1 <= page <= List(store, status, page, limit).totalPages.value
      && k % limit < |List(store, status, page, limit).relatos|
      && List(store, status, page, limit).relatos[k % limit] == SortByDateDesc(Matching(store, status))[k]
  {
    var sorted := SortByDateDesc(Matching(store, status));
    ListIsPage(store, status, k / limit + 1, limit);
    PageHoldsPosition(sorted, limit, k);
    PageArithmetic(k, limit, |Matching(store, status)|);
  }

  /** `total` does not depend on the page or the limit. */
  lemma TotalIndependentOfPage(store: Store, status: Option<string>, p1: int, l1: int, p2: int, l2: int)
    requires List(store, status, p1, l1).Listed? && List(store, status, p2, l2).Listed?
    ensures List(store, status, p1, l1).total == List(store, status, p2, l2).total
  {
  }

  /** Without a status filter every stored report counts toward `total`. */
  lemma NoFilterCountsAll(store: Store, page: int, limit: int)
    requires page >= 1 && limit >= 1
    ensures List(store, None, page, limit).total == |store|
  {
  }
}

=== FILE: route_scoring.dfy ===
/**
 * The simplified scorer behind `POST /api/analise`: an additive point table
 * over the report's metadata clamped at 100, a three-bucket status
 * (`ALTO_RISCO` / `MEDIO_RISCO` / `BAIXO_RISCO`), fixed recommendations keyed on
 * the same cutoffs, and the request handler that writes the score and status
 * back into the stored report.
 *
 * This vocabulary is distinct from the agent's four tiers (module `Agente`).
 */
module RouteScoring {
  import opened Wrappers
  import opened RelatoModel

  /** Points for the payee's earlier reports: one of 30, 20, 10 or 0. */
  function PriorReportPoints(count: int): (p: int)
    ensures p in {0, 10, 20, 30}
    ensures p == 0 <==> count <= 0
    ensures p == 30 <==> count > 5
  {
    if count > 5 then 30 else if count > 2 then 20 else if count > 0 then 10 else 0
  }

  /** Points for the amount against the payee's average (both in cents). */
  function AmountPoints(valor: int, valorMedio: int): (p: int)
    ensures p in {0, 15, 25}
    ensures p == 25 <==> valor > valorMedio * 3
    ensures valorMedio >= 0 ==> (p == 0 <==> valor <= valorMedio * 2)
  {
    if valor > valorMedio * 3 then 25 else if valor > valorMedio * 2 then 15 else 0
  }

  /** Points for the payee account's risk score. */
  function AccountRiskPoints(scoreRiscoConta: int): (p: int)
    ensures p in {0, 10, 20}
    ensures p == 20 <==> scoreRiscoConta < 300
    ensures p == 0 <==> scoreRiscoConta >= 600
  {
    if scoreRiscoConta < 300 then 20 else if scoreRiscoConta < 600 then 10 else 0
  }

  /** Points for a transaction made from a device new to the payer. */
  function DevicePoints(novoDispositivo: bool): (p: int)
    ensures p in {0, 15}
    ensures p > 0 <==> novoDispositivo
  {
    if novoDispositivo then 15 else 0
  }

  /** Points for a payer whose history is not consistent. */
  function HistoryPoints(historicoConsistente: bool): (p: int)
    ensures p in {0, 10}
    ensures p > 0 <==> !historicoConsistente
  {
    if historicoConsistente then 0 else 10
  }

  /** Only the exact string `ALTO` counts as a high-risk payer. */
  function ProfilePoints(perfilRisco: string): (p: int)
    ensures p in {0, 5}
    ensures p > 0 <==> perfilRisco == "ALTO"
  {
    if perfilRisco == "ALTO" then 5 else 0
  }

  /** The unclamped point total. */
  function RawScore(r: RelatoInfracao): (raw: int)
    ensures 0 <= raw <= 105
    ensures raw % 5 == 0
  {
    PriorReportPoints(r.metadadosAnalise.relatosAnterioresRecebedor)
    + AmountPoints(r.transacao.valor, r.metadadosAnalise.valorMedioTransacoesRecebedor)
    + AccountRiskPoints(r.recebedor.conta.scoreRiscoConta)
    + DevicePoints(r.metadadosAnalise.dispositivoTransacao.novoDispositivo)
    + HistoryPoints(r.metadadosAnalise.historicoPagadorConsistente)
    + ProfilePoints(r.pagador.perfilRisco)
  }

  /** `calcularScoreAnalise`: the point total, limited to 100. */
  function ScoreAnalise(r: RelatoInfracao): (score: int)
    ensures 0 <= score <= 100
    ensures score == RawScore(r) || (score == 100 && RawScore(r) > 100)
  {
    var raw := RawScore(r);
    if raw < 100 then raw else 100
  }

  /** The three statuses this route writes into `statusRelato`. */
  datatype RouteStatus = AltoRisco | MedioRisco | BaixoRisco {
    function Name(): string {
      match this
      case AltoRisco => "ALTO_RISCO"
      case MedioRisco => "MEDIO_RISCO"
      case BaixoRisco => "BAIXO_RISCO"
    }
  }

  /** The status mapping: above 70, above 40, otherwise. */
  function StatusFor(score: int): (s: RouteStatus)
    ensures s == AltoRisco <==> score > 70
    ensures s == MedioRisco <==> 40 < score <= 70
    ensures s == BaixoRisco <==> score <= 40
  {
    if score > 70 then AltoRisco else if score > 40 then MedioRisco else BaixoRisco
  }

  const SuspiciousHistory: string := "Conta do recebedor apresenta histórico suspeito"

  /** The fixed recommendations for each status. */
  function StatusRecommendations(s: RouteStatus): (recs: seq<string>)
    ensures |recs| == if s == BaixoRisco then 2 else 3
    ensures SuspiciousHistory !in recs
  {
    assert |SuspiciousHistory| == 47;
    match s
    case AltoRisco => [
      "Bloquear imediatamente a conta do recebedor",
      "Iniciar processo de MED (Mecanismo Especial de Devolução)",
      "Notificar autoridades competentes"]
    case MedioRisco => [
      "Monitorar transações da conta do recebedor",
      "Solicitar documentação adicional",
      "Aguardar mais evidências antes de tomar ação"]
    case BaixoRisco => [
      "Manter relato em observação",
      "Verificar consistência com outros relatos"]
  }

  /**
   * `gerarRecomendacoes`: the status's fixed list, then the suspicious-history
   * warning when the payee has more than three earlier reports.
   */
  function GerarRecomendacoes(score: int, r: RelatoInfracao): (recs: seq<string>)
    ensures var base := StatusRecommendations(StatusFor(score));
      && |recs| == |base| + (if r.metadadosAnalise.relatosAnterioresRecebedor > 3 then 1 else 0)
      && recs[..|base|] == base
    ensures |recs| == (if score > 40 then 3 else 2)
                      + (if r.metadadosAnalise.relatosAnterioresRecebedor > 3 then 1 else 0)
    ensures SuspiciousHistory in recs <==> r.metadadosAnalise.relatosAnterioresRecebedor > 3
    ensures r.metadadosAnalise.relatosAnterioresRecebedor > 3 ==> recs[|recs| - 1] == SuspiciousHistory
  {
    var base := StatusRecommendations(StatusFor(score));
    if r.metadadosAnalise.relatosAnterioresRecebedor > 3 then base + [SuspiciousHistory] else base
  }

  /** The handler's replies. */
  datatype AnalyzeResponse =
    | Analyzed(idRelato: string, scoreAnalise: int, statusRelato: string, recomendacoes: seq<string>)
    | BadRequest   // 400: no idRelato in the body
    | NotFound     // 404: no report with that idRelato

  /** The report after the handler's `findOneAndUpdate`. */
  function ApplyAnalysis(r: RelatoInfracao, now: int): (a: RelatoInfracao)
    ensures a.scoreAnalise == Some(ScoreAnalise(r)) && 0 <= a.scoreAnalise.value <= 100
    ensures a.statusRelato == StatusFor(a.scoreAnalise.value).Name()
    ensures a.statusRelato in {"ALTO_RISCO", "MEDIO_RISCO", "BAIXO_RISCO"}
    ensures a.dataAtualizacao == now
    ensures a.(scoreAnalise := r.scoreAnalise, statusRelato := r.statusRelato, dataAtualizacao := r.dataAtualizacao) == r
  {
    var score := ScoreAnalise(r);
    r.(scoreAnalise := Some(score), statusRelato := StatusFor(score).Name(), dataAtualizacao := now)
  }

  /**
   * `POST /api/analise`: reject a missing or empty `idRelato`, reject an unknown
   * one, otherwise score the report, store score and status on it and reply
   * with them and the recommendations.
   */
  function Analyze(store: Store, idRelato: Option<string>, now: int): (out: (AnalyzeResponse, Store))
    ensures out.0 == BadRequest <==> idRelato.None? || idRelato.value == ""
    ensures out.0 == NotFound <==> idRelato.Some? && idRelato.value != "" && !HasIdRelato(store, idRelato.value)
    ensures !out.0.Analyzed? ==> out.1 == store
    ensures out.0.Analyzed? ==>
      && |out.1| == |store|
      && exists k :: 0 <= k < |store| && store[k].idRelato == idRelato.value
           && out.1 == store[k := ApplyAnalysis(store[k], now)]
           && out.0 == Analyzed(idRelato.value, ScoreAnalise(store[k]),
                                StatusFor(ScoreAnalise(store[k])).Name(),
                                GerarRecomendacoes(ScoreAnalise(store[k]), store[k]))
  {
    if idRelato.None? || idRelato.value == "" then (BadRequest, store)
    else
      match FindIdRelato(store, idRelato.value)
      case None => (NotFound, store)
      case Some(k) =>
        var r := store[k];
        var score := ScoreAnalise(r);
        (Analyzed(idRelato.value, score, StatusFor(score).Name(), GerarRecomendacoes(score, r)),
         store[k := ApplyAnalysis(r, now)])
  }

  // ----- Properties of the point table -----

  /** Every rule's contribution is non-negative and the raw total is at most 105. */
  lemma RawScoreBounds(r: RelatoInfracao)
    ensures 0 <= RawScore(r) <= 30 + 25 + 20 + 15 + 10 + 5
  {
  }

  /** With every input neutral the score is 0. */
  lemma NeutralScoresZero(r: RelatoInfracao)
    requires r.metadadosAnalise.relatosAnterioresRecebedor <= 0
    requires r.metadadosAnalise.valorMedioTransacoesRecebedor >= 0
    requires r.transacao.valor <= r.metadadosAnalise.valorMedioTransacoesRecebedor * 2
    requires r.recebedor.conta.scoreRiscoConta >= 600
    requires !r.metadadosAnalise.dispositivoTransacao.novoDispositivo
    requires r.metadadosAnalise.historicoPagadorConsistente
    requires r.pagador.perfilRisco != "ALTO"
    ensures ScoreAnalise(r) == 0
    ensures StatusFor(ScoreAnalise(r)) == BaixoRisco
  {
  }

  /** The earlier-report count contributes exactly one of 30/20/10/0 by band. */
  lemma PriorReportBands(count: int)
    ensures count > 5 ==> PriorReportPoints(count) == 30
    ensures 2 < count <= 5 ==> PriorReportPoints(count) == 20
    ensures 0 < count <= 2 ==> PriorReportPoints(count) == 10
    ensures count <= 0 ==> PriorReportPoints(count) == 0
  {
  }

  /** Replacing one field of a report with one that earns no fewer points never lowers the score. */
  lemma ScoreMonotoneInRaw(a: RelatoInfracao, b: RelatoInfracao)
    requires RawScore(a) <= RawScore(b)
    ensures ScoreAnalise(a) <= ScoreAnalise(b)
  {
  }

  /** The score is non-decreasing in the payee's earlier-report count. */
  lemma ScoreMonotoneInPriorReports(r: RelatoInfracao, count: int)
    requires r.metadadosAnalise.relatosAnterioresRecebedor <= count
    ensures ScoreAnalise(r) <= ScoreAnalise(r.(metadadosAnalise := r.metadadosAnalise.(relatosAnterioresRecebedor := count)))
  {
    var r' := r.(metadadosAnalise := r.metadadosAnalise.(relatosAnterioresRecebedor := count));
    assert PriorReportPoints(r.metadadosAnalise.relatosAnterioresRecebedor) <= PriorReportPoints(count);
    assert RawScore(r) <= RawScore(r');
    ScoreMonotoneInRaw(r, r');
  }

  /** The score is non-decreasing in the transaction amount. */
  lemma ScoreMonotoneInValor(r: RelatoInfracao, valor: int)
    requires r.transacao.valor <= valor
    ensures ScoreAnalise(r) <= ScoreAnalise(r.(transacao := r.transacao.(valor := valor)))
  {
    var r' := r.(transacao := r.transacao.(valor := valor));
    var avg := r.metadadosAnalise.valorMedioTransacoesRecebedor;
    assert AmountPoints(r.transacao.valor, avg) <= AmountPoints(valor, avg);
    assert RawScore(r) <= RawScore(r');
    ScoreMonotoneInRaw(r, r');
  }

  /** The score is non-increasing in the payee account's risk score. */
  lemma ScoreAntitoneInAccountRisk(r: RelatoInfracao, scoreRiscoConta: int)
    requires r.recebedor.conta.scoreRiscoConta <= scoreRiscoConta
    ensures ScoreAnalise(r.(recebedor := r.recebedor.(conta := r.recebedor.conta.(scoreRiscoConta := scoreRiscoConta))))
            <= ScoreAnalise(r)
  {
    var r' := r.(recebedor := r.recebedor.(conta := r.recebedor.conta.(scoreRiscoConta := scoreRiscoConta)));
    assert AccountRiskPoints(scoreRiscoConta) <= AccountRiskPoints(r.recebedor.conta.scoreRiscoConta);
    assert RawScore(r') <= RawScore(r);
    ScoreMonotoneInRaw(r', r);
  }

  /** The status is monotone in the score. */
  lemma StatusMonotone(s1: int, s2: int)
    requires s1 <= s2
    ensures StatusFor(s1) == AltoRisco ==> StatusFor(s2) == AltoRisco
    ensures StatusFor(s2) == BaixoRisco ==> StatusFor(s1) == BaixoRisco
  {
  }

  /** Recommendation lists have two, three or four entries. */
  lemma RecommendationCount(score: int, r: RelatoInfracao)
    ensures 2 <= |GerarRecomendacoes(score, r)| <= 4
  {
  }

  // ----- Properties of the handler -----

  /** Analysing never changes an identifier, so the unique index survives. */
  lemma AnalyzePreservesUniqueness(store: Store, idRelato: Option<string>, now: int)
    requires UniqueIds(store)
    ensures UniqueIds(Analyze(store, idRelato, now).1)
    ensures forall i :: 0 <= i < |store| ==> Analyze(store, idRelato, now).1[i].idRelato == store[i].idRelato
  {
  }

  /** Only the analysed report changes; every other stored report is left as it was. */
  lemma AnalyzeTouchesOnlyTarget(store: Store, id: string, now: int, i: nat)
    requires id != "" && i < |store| && store[i].idRelato != id
    ensures i < |Analyze(store, Some(id), now).1|
    ensures Analyze(store, Some(id), now).1[i] == store[i]
  {
  }

  /**
   * The score reads none of the fields the handler writes, so analysing an
   * already analysed report reproduces the same score, status and recommendations.
   */
  lemma ReanalysisIsStable(r: RelatoInfracao, now: int)
    ensures ScoreAnalise(ApplyAnalysis(r, now)) == ScoreAnalise(r)
    ensures GerarRecomendacoes(ScoreAnalise(r), ApplyAnalysis(r, now)) == GerarRecomendacoes(ScoreAnalise(r), r)
    ensures ApplyAnalysis(ApplyAnalysis(r, now), now) == ApplyAnalysis(r, now)
  {
  }

  /** Under a unique index the handler analyses the one report carrying the identifier. */
  lemma AnalyzeScoresTheMatch(store: Store, id: string, now: int, k: nat)
    requires UniqueIds(store) && k < |store| && store[k].idRelato == id && id != ""
    ensures Analyze(store, Some(id), now).0 == Analyzed(id, ScoreAnalise(store[k]),
              StatusFor(ScoreAnalise(store[k])).Name(), GerarRecomendacoes(ScoreAnalise(store[k]), store[k]))
    ensures Analyze(store, Some(id), now).1 == store[k := ApplyAnalysis(store[k], now)]
  {
    var f := FindIdRelato(store, id);
    assert f.Some?;
    UniqueFindIsOnlyMatch(store, id, f.value);
  }
}

=== FILE: sample_data.dfy ===
/**
 * The three sample reports the submission form offers (low, medium and
 * "critical" risk), and what the route scorer, the agent's fallback and the
 * report route make of them. Amounts are in cents; `now` is the moment the
 * form fills the sample in.
 */
module SampleData {
  import opened Wrappers
  import opened RelatoModel
  import opened RouteScoring
  import opened AnaliseModel
  import opened Agente
  import opened RelatosRoute

  const HourMs: int := 60 * 60 * 1000
  const MinuteMs: int := 60 * 1000

  /** The low-risk sample's fields. */
  function BaixoTransacao(now: int): Transacao {
    Transacao("E12345678202401010000000000000001", "TXN12345678901234567890123456789012",
              15000, now - 2 * HourMs, "QR_CODE")
  }

  const BaixoPagador: Pagador :=
    Pagador("12345678901", "João Silva Santos", "1234", "567890", "Banco do Brasil", "BAIXO")

  const BaixoRecebedor: Recebedor :=
    Recebedor("98765432100", "Maria Oliveira Costa", "maria.oliveira@email.com", "Nubank",
              ContaRecebedor("0001", "12345678", 1579046400000, 85))

  const BaixoAvaliacao: AvaliacaoFraude :=
    AvaliacaoFraude("Transação não autorizada", "Clonagem de cartão",
                    "Recebi uma notificação de PIX que não realizei. Valor de R$ 150,00 para uma pessoa que não conheço.",
                    [EvidenciaAnexada("print_tela", "https://exemplo.com/evidencia1.jpg")])

  const BaixoMetadados: MetadadosAnalise :=
    MetadadosAnalise(0, 20000, true, DispositivoTransacao("DEV123456789", "192.168.1.100", false))

  /** The medium-risk sample's fields. */
  function MedioTransacao(now: int): Transacao {
    Transacao("E12345678202401010000000000000002", "TXN12345678901234567890123456789013",
              250000, now - 30 * MinuteMs, "CHAVE_PIX")
  }

  const MedioPagador: Pagador :=
    Pagador("11122233344", "Carlos Eduardo Ferreira", "5678", "901234", "Itaú", "MEDIO")

  const MedioRecebedor: Recebedor :=
    Recebedor("44455566677", "Ana Paula Rodrigues", "+5511999888777", "Bradesco",
              ContaRecebedor("1234", "87654321", 1687219200000, 45))

  const MedioAvaliacao: AvaliacaoFraude :=
    AvaliacaoFraude("Golpe do PIX", "Falsa identidade",
                    "Recebi uma mensagem no WhatsApp de alguém se passando por funcionário do banco pedindo para fazer um PIX de R$ 2.500,00 para 'liberar' minha conta. Realizei o PIX e depois descobri que era golpe.",
                    [EvidenciaAnexada("print_conversa", "https://exemplo.com/evidencia2.jpg"),
                     EvidenciaAnexada("comprovante_pix", "https://exemplo.com/evidencia3.jpg")])

  const MedioMetadados: MetadadosAnalise :=
    MetadadosAnalise(2, 180000, false, DispositivoTransacao("DEV987654321", "201.45.123.45", true))

  /** The "critical" sample's fields. */
  function CriticoTransacao(now: int): Transacao {
    Transacao("E12345678202401010000000000000003", "TXN12345678901234567890123456789014",
              5000000, now - 10 * MinuteMs, "CHAVE_PIX")
  }

  const CriticoPagador: Pagador :=
    Pagador("55566677788", "Roberto Almeida Silva", "9999", "111111", "Santander", "ALTO")

  const CriticoRecebedor: Recebedor :=
    Recebedor("99988877766", "José da Silva Santos", "jose.silva@email.com", "Caixa Econômica",
              ContaRecebedor("0001", "99999999", 1704067200000, 15))

  const CriticoAvaliacao: AvaliacaoFraude :=
    AvaliacaoFraude("Golpe do PIX", "Sequestro virtual",
                    "Recebi uma ligação de alguém se passando por funcionário do banco dizendo que minha conta estava comprometida e que eu precisava transferir todo meu dinheiro (R$ 50.000) para uma conta 'segura' para protegê-lo. Fiz o PIX e depois descobri que era golpe. Perdi todo meu dinheiro.",
                    [EvidenciaAnexada("gravacao_audio", "https://exemplo.com/evidencia4.mp3"),
                     EvidenciaAnexada("print_conversa", "https://exemplo.com/evidencia5.jpg"),
                     EvidenciaAnexada("comprovante_pix", "https://exemplo.com/evidencia6.jpg")])

  const CriticoMetadados: MetadadosAnalise :=
    MetadadosAnalise(8, 3500000, false, DispositivoTransacao("DEV555666777", "45.123.45.67", true))

  datatype Sample = BaixoSample | MedioSample | CriticoSample

  /** The form's payload for a sample: it carries no `idRelato`. */
  function SamplePayload(s: Sample, now: int): Payload {
    match s
    case BaixoSample =>
      Payload(None, Some(now), None, Some(BaixoTransacao(now)), Some(BaixoPagador),
              Some(BaixoRecebedor), Some(BaixoAvaliacao), Some(BaixoMetadados), None, None)
    case MedioSample =>
      Payload(None, Some(now), None, Some(MedioTransacao(now)), Some(MedioPagador),
              Some(MedioRecebedor), Some(MedioAvaliacao), Some(MedioMetadados), None, None)
    case CriticoSample =>
      Payload(None, Some(now), None, Some(CriticoTransacao(now)), Some(CriticoPagador),
              Some(CriticoRecebedor), Some(CriticoAvaliacao), Some(CriticoMetadados), None, None)
  }

  /** A sample with an `idRelato` filled in, as a client would have to post it. */
  function SampleWithId(s: Sample, idRelato: string, now: int): (p: Payload)
    ensures p.idRelato == Some(idRelato)
    ensures p.transacao == SamplePayload(s, now).transacao
    ensures p.metadadosAnalise == SamplePayload(s, now).metadadosAnalise
  {
    SamplePayload(s, now).(idRelato := Some(idRelato))
  }

  /** The document the report route builds from a sample once an `idRelato` is added to it. */
  function SampleRecord(s: Sample, idRelato: string, now: int): (r: RelatoInfracao)
    requires idRelato != ""
    ensures r.idRelato == idRelato && r.statusRelato == DefaultStatus
    ensures r.scoreAnalise.None? && r.dataCriacao == now
  {
    RecordOf(SampleWithId(s, idRelato, now), "", now)
  }

  /** The form's samples carry no `idRelato`, so posting one as is gets 400 and stores nothing. */
  lemma SamplePayloadRejected(store: Store, s: Sample, id: string, now: int)
    ensures Create(store, SamplePayload(s, now), id, now) == (MissingFields, store)
  {
  }

  /**
   * With a fresh `idRelato` added, posting a sample is accepted: it passes
   * every schema validator, is appended as the unanalysed report, and the
   * response echoes the default status.
   */
  lemma SampleRecordValid(store: Store, s: Sample, idRelato: string, now: int)
    requires idRelato != ""
    requires !HasIdRelato(store, idRelato)
    ensures SchemaValid(SampleRecord(s, idRelato, now))
    ensures Create(store, SampleWithId(s, idRelato, now), "", now)
            == (Created("", idRelato, DefaultStatus), store + [SampleRecord(s, idRelato, now)])
  {
  }

  /** The route scores the samples 20, 55 and 80: low, medium and high risk. */
  lemma SampleRouteScores(idRelato: string, now: int)
    requires idRelato != ""
    ensures ScoreAnalise(SampleRecord(BaixoSample, idRelato, now)) == 20
    ensures ScoreAnalise(SampleRecord(MedioSample, idRelato, now)) == 55
    ensures ScoreAnalise(SampleRecord(CriticoSample, idRelato, now)) == 80
    ensures StatusFor(20) == BaixoRisco && StatusFor(55) == MedioRisco && StatusFor(80) == AltoRisco
  {
  }

  /** Only the critical sample has more than three earlier reports, so only it gets the warning. */
  lemma SampleRecommendations(idRelato: string, now: int)
    requires idRelato != ""
    ensures |GerarRecomendacoes(20, SampleRecord(BaixoSample, idRelato, now))| == 2
    ensures |GerarRecomendacoes(55, SampleRecord(MedioSample, idRelato, now))| == 3
    ensures GerarRecomendacoes(80, SampleRecord(CriticoSample, idRelato, now))
            == StatusRecommendations(AltoRisco) + [SuspiciousHistory]
  {
  }

  /**
   * The fallback gives the samples 20, 60 and 60, so the "critical" sample
   * reaches only the medium tier when the model is unavailable.
   */
  lemma SampleFallbackScores(idRelato: string, now: int)
    requires idRelato != ""
    ensures AnaliseFallback(SampleRecord(BaixoSample, idRelato, now)).score == 20
    ensures AnaliseFallback(SampleRecord(MedioSample, idRelato, now)).score == 60
    ensures AnaliseFallback(SampleRecord(CriticoSample, idRelato, now)).score == 60
    ensures NivelRisco(20) == Baixo && NivelRisco(60) == Medio
  {
  }

  /**
   * The two vocabularies disagree: a score of 35 is low risk to the route
   * (cutoff 40) but medium to the agent (cutoff 30), and the route never
   * yields a score the agent calls critical.
   */
  lemma VocabulariesDisagree(r: RelatoInfracao)
    ensures StatusFor(35) == BaixoRisco && NivelRisco(35) == Medio
    ensures NivelRisco(ScoreAnalise(r)) != Critico
  {
  }
}

=== FILE: text.dfy ===
/** String helpers used by the prompt renderer and the response extractor. */
module Text {

  /** `p` occurs in `s` starting at index `i`. */
  predicate OccursAt(s: string, p: string, i: int) {
    0 <= i && i + |p| <= |s| && s[i..i + |p|] == p
  }

  /** `p` occurs somewhere in `s`. */
  predicate Contains(s: string, p: string) {
    exists i | 0 <= i <= |s| - |p| :: OccursAt(s, p, i)
  }

  /** `c` does not occur in `s`. */
  predicate Lacks(s: string, c: char) {
    forall k :: 0 <= k < |s| ==> s[k] != c
  }

  /** ASCII upper-casing of one character; every other character is left as it is. */
  function UpperChar(c: char): (u: char)
    ensures 'a' <= c <= 'z' ==> 'A' <= u <= 'Z'
    ensures !('a' <= c <= 'z') ==> u == c
  {
    if 'a' <= c <= 'z' then (c as int - 'a' as int + 'A' as int) as char else c
  }

  /** `String.prototype.toUpperCase` restricted to ASCII letters. */
  function ToUpper(s: string): (u: string)
    ensures |u| == |s|
    ensures forall k :: 0 <= k < |s| ==> u[k] == UpperChar(s[k])
  {
    if |s| == 0 then "" else [UpperChar(s[0])] + ToUpper(s[1..])
  }

  function DigitChar(d: int): char
    requires 0 <= d < 10
  {
    "0123456789"[d]
  }

  predicate IsDigit(c: char) {
    '0' <= c <= '9'
  }

  /** Value of a string of decimal digits; the empty string reads as 0. */
  function DigitsValue(s: string): nat
    requires forall k :: 0 <= k < |s| ==> IsDigit(s[k])
  {
    if |s| == 0 then 0
    else
      assert IsDigit(s[|s| - 1]);
      DigitsValue(s[..|s| - 1]) * 10 + (s[|s| - 1] as int - '0' as int)
  }

  /** Decimal rendering of a natural number, without leading zeros. */
  function NatToString(n: nat): (r: string)
    ensures |r| >= 1
    ensures forall k :: 0 <= k < |r| ==> IsDigit(r[k])
    ensures DigitsValue(r) == n
    ensures |r| > 1 ==> r[0] != '0'
  {
    if n < 10 then [DigitChar(n)]
    else
      var prefix := NatToString(n / 10);
      var r := prefix + [DigitChar(n % 10)];
      assert r[..|r| - 1] == prefix;
      r
  }

  /** `String(n)` for an integer `n`. */
  function IntToString(n: int): (r: string)
    ensures |r| >= 1
    ensures n >= 0 ==> r == NatToString(n)
    ensures n < 0 ==> r == "-" + NatToString(-n)
  {
    if n < 0 then "-" + NatToString(-n) else NatToString(n)
  }
}

=== FILE: wrappers.dfy ===
/** Failure-carrying result types shared by every module of the model. */
module Wrappers {

  /** A value that may be absent: a JavaScript `undefined` field or a `null` match. */
  datatype Option<+T> = None | Some(value: T) {

    /** The wrapped value, or `default` when absent (the `x ?? default` idiom). */
    function GetOr(default: T): T {
      match this
      case Some(v) => v
      case None => default
    }
  }

  /** The outcome of an operation that can throw: a value or an error. */
  datatype Result<+T, +E> = Ok(value: T) | Err(error: E)
}
